=== FILE: README.md ===
# eth-fetcher, modelled in Dafny

eth-fetcher is a small HTTP service. A client submits a range of Ethereum
block numbers. The service fetches every block of the range in parallel
batches of 500, computes each block's gas used and total priority tips,
and writes the results in block order to a CSV file. The client can stop
the job and download the file. Per-block results are cached in SQLite,
with the tips stored as a `0x` hex string.

This project models the core of that service:

- `parallelFetcher` (`Fetcher`, `Batches`, `BatchWalk`). It covers:
  - the partition of `[start, end]` into batches;
  - the cancellation check before each block is launched;
  - the per-batch sort;
  - the contiguous walk that writes rows only from the next expected block on;
  - the CSV lines;
  - the `LastWritten` progress stored after each batch.
- The job table (`Jobs`): the status transitions made by the `/request`,
  `/stop/` and `/download/` handlers and by the goroutine that runs the
  fetch.
- The analyzer (`Hex`, `Analyzer`):
  - `hexToBig` and `padOdd`;
  - the tip of a transaction and `calculateTotalTips`;
  - `getBlockGasUsed`;
  - the hex timestamp parse;
  - the cache row written for a block and the values read back from it.

`Numerals` defines positional numerals once, for the decimal output, the
hex input and the byte string `hex.DecodeString` produces. `Results`
holds `Option` and `Result`, where `Panic(reason)` stands for a Go
`panic` and for a nil-pointer dereference.

The concurrent fan-out of a batch is modelled by its outcome, not by its
scheduling. `fetched[k]` is the list of results batch `k` gathered, in
completion order. `cancelFrom` is the first block whose pre-launch check
sees the context cancelled.

The model follows the code where it departs from what the code itself
suggests was meant:

- The download handler accepts a `stopped` job (main.go:204), so a
  stopped job was evidently meant to end `stopped`. In the code, a
  cancelled `parallelFetcher` returns `nil`, so the completion goroutine
  marks the job `done`. Nothing ever sets `running` or `stopped`
  (`Jobs.ReachableWellFormed`, `Jobs.StoppedJobEndsDone`).
- The CSV header names four columns. Each data row carries only three:
  block number, gas used and tips. The timestamp column is never
  written (`Fetcher.CsvShape`).
- `LastWritten` is stored only after a batch's walk, as `lastWritten - 1`
  in `uint64` arithmetic. Once a batch has finished, a job starting at
  block 0 that has written nothing reports 2^64 - 1. Before that it
  reports 0, the value a new job starts with, and so does a job stopped
  during its first batch (`Fetcher.LastWrittenValue`, `Jobs.Submit`).

## Model

| member | source | states |
|---|---|---|
| Fetcher.ParallelFetcher | main.go:47-129 | Only an `os.Create` failure is returned; a cancelled run returns nil. The rows written are blocks `start, start+1, …` with no gap, each carrying the data fetched for it in its own batch. The file is the header plus one line per row. One progress value is stored per finished batch, as `cursor - 1` mod 2^64. Cursors never move back or leave their batch. Each walk stops at the first missing block. A fully fetched batch entered at its first block is written completely. After a gap no later batch writes anything. The loop ends exactly at the first batch whose checks see the cancellation. Without cancellation and with every block fetched, all `end - start + 1` blocks are written. |
| Fetcher.NothingMissedWritesAll | main.go:64-119 | If no batch is cancelled and every batch was fully fetched, the rows cover the whole range. |
| Fetcher.FetchStateStep | main.go:106-125 | One batch's walk keeps the loop's bookkeeping true: gapless rows, the cursor inside its batch, a maximal walk, gaps persisting, and progress equal to `cursor - 1` mod 2^64. |
| Fetcher.FullBatchAdvances | main.go:106-119 | A batch that is entered at its first block and fully fetched moves the cursor past its last block. |
| Fetcher.GapHoldsCursor | main.go:115-118 | Once the cursor is stuck before the end of a batch, every later batch leaves it where it is, because none of their blocks equals it. |
| Fetcher.CsvShape | main.go:59-113 | The header has four names. Line `i+1` has exactly three canonical decimal fields, and they read back as block `start+i`, its gas used and its tips. |
| Fetcher.CsvAppend | main.go:107-120 | Writing a batch's rows after earlier rows gives the file of all rows in order. |
| Fetcher.LastWrittenValue | main.go:121-125 | The stored value is below 2^64. It is `cursor - 1` for a positive cursor (the last block written once a row exists, `start - 1` before), and 2^64 - 1 when the cursor is still 0. |
| Batches.BatchesShape | main.go:61-65 | There are `(end - start) / 500 + 1` batches when `start <= end`, and none otherwise. Batch `k` is `[start + 500k, min(start + 500k + 499, end)]`. |
| Batches.BatchesPartition | main.go:61-65 | Batches are consecutive. The first starts at `start` and the last ends at `end`. Every block lies in the batch `BatchIndex` names and in no other. |
| Batches.BatchesOrdered | main.go:64-65 | Every batch is non-empty and lies inside `[start, end]`. Earlier batches lie entirely below later ones. |
| Batches.Partition | main.go:61-65 | Batches exist exactly when `start <= end`. The first is `[start, min(start + 499, end)]` and the last ends at `end`. |
| Batches.BatchesFromBounds | main.go:64-65 | The batches from any starting block lie inside the range from there to `end`, and run from that block to `end`. |
| Batches.AsWrittenBatches | main.go:64-65 | As written, the loop visits at most `fuel` batches. The first starts at `batchStart`, each begins at the previous start plus 500 modulo 2^64, each starts at or below `end`, and each ends at the wrapped `batchEnd`. |
| Batches.AsWrittenBlocks | main.go:72 | As written, the inner loop visits at most `fuel` block numbers. It visits any exactly when `bn <= batchEnd`, and the first is `bn`. |
| Batches.AsWrittenBlocksValues | main.go:72 | The `k`-th block the inner loop visits is `bn + k` modulo 2^64. |
| Batches.AsWrittenBlocksBelowTop | main.go:72 | When `batchEnd < 2^64 - 1`, the inner loop with enough steps visits exactly `bn, ..., batchEnd` and stops. |
| Batches.AsWrittenBlocksAtTop | main.go:72 | When `batchEnd = 2^64 - 1`, the inner loop takes every step it is allowed, so it never stops. |
| Batches.AsWrittenInnerLoopNeverEnds | main.go:72 | For `start = 2^64 - 500` and `end = 2^64 - 1`, the single batch ends at 2^64 - 1. Its inner loop runs for any number of steps, reaching block 2^64 - 1 at step 499 and block 0 at step 500. |
| Batches.AsWrittenAgreesBelowTop | main.go:64-65 | When `end + 500 < 2^64`, the loop as written in `uint64` gives exactly the corrected partition. |
| Batches.AsWrittenWrapsAtTop | main.go:64-65 | For `start = end = 2^64 - 1`, the loop as written wraps around: it yields `[2^64-1, 498]`, then `[499, 998]`, then `[999, 1498]`, and so on. |
| BatchWalk.SortByBlock | main.go:101-104 | The result is sorted by block number and is a permutation of the input. |
| BatchWalk.Walk | main.go:106-119 | From the cursor, the walk writes one row per consecutive block present in the sorted batch, each row taken from a result of the batch. It stops at the first number at or above the cursor that is missing; earlier numbers are skipped. |
| BatchWalk.BatchStep | main.go:99-119 | Sort-then-walk over a batch in completion order writes the gapless run from the cursor up to the first missing block. |
| BatchWalk.BatchStepOrderIndependent | main.go:99-119 | Two completion orders of the same results (distinct block numbers) write the same rows and leave the same cursor. |
| BatchWalk.CompleteBatchAdvances | main.go:107-114 | If every block from the cursor to `last` was fetched and nothing beyond, the cursor ends at `last + 1`. |
| BatchWalk.GapStopsBatch | main.go:115-117 | If every fetched block lies above the cursor, the batch writes nothing and the cursor stays. |
| Jobs.Submit | main.go:144-161 | The reply is 400 "Invalid end block" exactly when `end < start`, and the table is then unchanged. Otherwise the new job is `pending`, not cancelled, and has no path, error or progress yet. Every other job is unchanged. |
| Jobs.Stop | main.go:182-196 | An unknown id gets 404 "Job not found", otherwise "Stopping job". The job is marked cancelled exactly when it was `pending`. No status, path or progress changes. |
| Jobs.RecordProgress | main.go:121-125 | Only the job's `LastWritten` changes, to `cursor - 1` mod 2^64. Nothing happens if the job is gone. |
| Jobs.Complete | main.go:164-175 | A missing job is a nil-dereference panic. The job becomes `error` with the message exactly when the fetch failed and was not cancelled. Otherwise it becomes `done` with the path built from its range and id. Its range, progress and `cancelled` flag stay as they were, and every other job is unchanged. |
| Jobs.Download | main.go:199-211 | The file is served exactly when the job exists, is `done` or `stopped`, and has a path; otherwise the reply is 404 "File not ready or job not found". The served path is the job's path. |
| Jobs.JobFilePath | main.go:153 | The output path lies in the directory `/var/eth-fetcher/jobs/` and has a non-empty name after it. |
| Jobs.DownloadName | main.go:209 | The corrected download name is the path with the job directory removed, and the path itself when it is not in that directory. |
| Jobs.AsWrittenDownloadName | main.go:209 | As written, the name is the path without its first five characters; a path shorter than five characters panics. |
| Jobs.JobFilePathInjective | main.go:153 | Two jobs share an output path only if they have the same start, end and id. The decimal fields contain no `_`, so the path splits back uniquely. |
| Jobs.AsWrittenNameKeepsDirectories | main.go:209 | The as-written download name of every job file is `eth-fetcher/jobs/eth_blocks_…csv`, not the file's own name. |
| Jobs.DownloadNameOfJob | main.go:209 | The corrected download name of a job's file is exactly `eth_blocks_<start>_<end>_<id>.csv`. |
| Jobs.ReachableWellFormed | main.go:136-211 | From a well-formed table, every sequence of submit, stop, progress and completion events leads to a well-formed table. No job is ever `running` or `stopped`, and the range is never inverted. A pending job has no path. Every `done` job downloads its own file, under the corrected name `eth_blocks_<start>_<end>_<id>.csv`. |
| Jobs.StoppedJobEndsDone | main.go:164-196 | A job stopped while pending ends `done` whatever the fetch returned, and its partial file can be downloaded. |
| Jobs.FailedJobNotDownloadable | main.go:164-211 | An unstopped job whose fetch failed ends `error` with the message and cannot be downloaded. |
| Jobs.PendingJobNotDownloadable | main.go:121-211 | A pending job stays `pending` and cannot be downloaded, whatever progress it reported. |
| Hex.PadOdd | analyzer.go:206-211 | The result has even length. It is `"0" + s` for odd `s` and `s` otherwise. |
| Hex.PadOddPreservesValue | analyzer.go:206-211 | Padding keeps every character a hex digit and keeps the hex value. |
| Hex.DecodeHexString | analyzer.go:199-200 | Decoding succeeds exactly for even-length strings of hex digits. Byte `i` is `16 * digit(2i) + digit(2i+1)`. |
| Hex.DecodedBytesValue | analyzer.go:199-203 | The big-endian value of the decoded bytes is the hex value of the string. |
| Hex.HexToBig | analyzer.go:194-204 | After removing one `0x`, the result is `Ok` exactly when every character is a hex digit. The value is the hex value, and 0 for an empty string. Otherwise it panics with "invalid hex string: " and the stripped text. |
| Hex.DoublePrefixPanics | analyzer.go:195-201 | `0x0x…` panics because only one prefix is removed. |
| Hex.HexRoundTrip | analyzer.go:186 | The tips written to the cache as `0x%x` are read back by `hexToBig` as the same number. |
| Hex.HexEncodeOfDecoded | analyzer.go:194-203 | Conversely, `hexToBig` accepts every "0x" followed by a canonical lower-case hex numeral, and `0x%x` of what it reads gives back that text. |
| Hex.ParseMagnitude | analyzer.go:178-181 | After the optional sign, the parse succeeds exactly for a non-empty run of hex digits whose signed value fits `int64`, and the value is that signed value. Digits are read left to right: a range error when the leading run of digits is worth 2^64 or more (whatever follows) or when all-digit text does not fit `int64`; a syntax error otherwise. |
| Hex.ParseUint64Hex | analyzer.go:178 | The unsigned parse succeeds exactly for a non-empty all-digit text worth less than 2^64, with that value; a failure is a range error exactly when the leading run of digits is worth 2^64 or more. |
| Hex.ScanHexReads | analyzer.go:178 | The left-to-right digit loop, after digits already read, ends in a range error if those digits and the next run of digits overflow 2^64 - 1, else in a syntax error if a character is left over, else with their value. |
| Hex.OverflowBeforeBadCharacter | analyzer.go:178-180 | Digits worth 2^64 or more are a range error whatever comes after them, e.g. `10000000000000000g`. |
| Hex.ParseInt64Hex | analyzer.go:178 | After splitting off the sign, the result is `Ok` exactly when the digits are non-empty hex digits whose signed value fits `int64`, with that value; a failure carries the left-to-right reason. |
| Hex.SplitSign | analyzer.go:178 | The value is negative exactly when the text starts with `-`. A leading `+` or `-` is removed and anything else is left as the digits. |
| Hex.ParseFormatInt64 | analyzer.go:178-181 | Every `int64` timestamp formatted in hex parses back to itself. |
| Analyzer.Tip | analyzer.go:124-130 | The tip is zero exactly when the gas price is at most the base fee or the gas is zero. It is never more than `gasPrice * gas`, and it equals `(gasPrice - baseFee) * gas` otherwise. |
| Analyzer.ReduceTips | analyzer.go:120-137 | The fold succeeds exactly when every transaction's fields are valid hex. Its value is the accumulator plus the reference sum of the tips. |
| Analyzer.CalculateTotalTips | analyzer.go:118-139 | The result is `Ok` exactly when the base fee and every transaction decode. The value is the sum of the tips, and an empty block has 0. |
| Analyzer.TotalTipsAppend | analyzer.go:120-137 | The tips of two transaction lists concatenated are the sum of their tips. |
| Analyzer.TotalTipsPermutation | analyzer.go:120-137 | The sum of tips does not depend on the order of the transactions. |
| Analyzer.CalculateTotalTipsReorder | analyzer.go:118-139 | Reordering a block's transactions changes neither whether the calculation panics nor its value. |
| Analyzer.AddTransaction | analyzer.go:118-139 | Adding a transaction raises the block's total by that transaction's tip, so the total never decreases. |
| Analyzer.BlockGasUsed | analyzer.go:141-143 | Gas used decodes exactly when the field is hex digits after one "0x", to their hex value; otherwise it panics with "invalid hex string: " and the stripped text, as `hexToBig` does. |
| Analyzer.BlockTimestamp | analyzer.go:178-181 | One `0x` is trimmed, then an optional sign and hex digits. The result is `Ok` exactly when the digits are non-empty and their signed value fits `int64`, with that value; otherwise it panics with the reason `strconv` reports. |
| Analyzer.Analyze | analyzer.go:176-182 | The fresh path succeeds exactly when gas used, the tips and the timestamp all decode, and then returns those three values. |
| Analyzer.ReadCacheEntry | analyzer.go:151-155 | A cached row is read back exactly when both text columns are hex; the record then holds the stored timestamp and the two decoded values, and otherwise the panic names the first column that failed. |
| Analyzer.TimestampRoundTrip | analyzer.go:178-181 | A non-negative `int64` timestamp sent as `0x` plus lower-case hex parses back to itself. |
| Analyzer.CacheEntryFor | analyzer.go:185-186 | The cache row stores the tips as `0x%x`, which `hexToBig` reads back as the tips. |
| Analyzer.CacheRoundTrip | analyzer.go:151-155 | For any block whose fresh analysis succeeds, reading back the cache row written for it gives the same timestamp, gas used and tips. |
| Numerals.FormatRoundTrip | main.go:110-112 | Formatting a number in base 10 or 16 and reading it back gives the number. |

## Left out

- Goroutines, `sync.WaitGroup` and the mutexes. The fan-out of a batch is an input (`fetched`), and each handler's effect on the job table is applied atomically, as the mutex makes it.
- HTTP plumbing: routing, JSON encoding of replies, `http.ServeFile`, and `strconv.ParseUint` of the query. The handlers are modelled from the parsed `start` and `end` on.
- UUID generation. The job id is a parameter of `Jobs.Submit`.
- The `/status/` and `/jobs` endpoints. They only read the table.
- The CSV writer and file I/O. The file is modelled as its list of lines, each a list of fields; CSV quoting never applies to decimal fields.
- Fetching a block over RPC, the HTTP client and the rate limiter. A block is an input record of hex strings.
- SQLite and the retry loop with `time.Sleep`. `fetched` over-approximates what a batch can gather. In the source, a block is missing from a batch only when its fetch saw the cancellation (analyzer.go:159-160, 167-168).
- A fetch that panics is not modelled. A bad timestamp or bad hex (analyzer.go:179-180, 201) panics inside a fetch goroutine, and that ends the whole process.
- A fetch that never succeeds is not modelled. Without cancellation it retries forever, and `wg.Wait()` (main.go:99) never returns.
- `time.Unix`. The timestamp is kept as its `int64` seconds.
- The Python client (client.py). It is not part of this model.
- Hex.ParseMagnitude: failures are modelled as a syntax or range reason only. Go's `*strconv.NumError` message text, which names the function and the input, is not reproduced.
- Fetcher.ParallelFetcher: requires `end < 2^64`, as `uint64` demands. The batch loop is modelled by the corrected partition; the loop as written is compared separately under Findings.
- Jobs.Complete: builds the output path from the start and end recorded in the job. In the source these are the same values the closure captured.
- Jobs.Download: serves under the corrected name (`Jobs.DownloadName`). The name as written is modelled separately under Findings.

## Findings

| source | as written | input that shows it | evidently intended | confidence | as-written member | corrected member |
|---|---|---|---|---|---|---|
| main.go:64-65 | `batchStart += batchSize` and `batchStart+batchSize-1` are `uint64` and wrap past 2^64 - 1, so the loop never ends and its batches fall outside `[start, end]`; the inner `bn++` (main.go:72) wraps too | `start = end = 2^64 - 1` gives batch `[2^64-1, 498]`, then `[499, 998]`, and so on | batches that partition `[start, end]` and stop after `end` | not executed | Batches.AsWrittenWrapsAtTop | Batches.BatchesPartition |
| main.go:209 | `job.FilePath[len("jobs/"):]` drops only the first five characters of `/var/eth-fetcher/jobs/…` | any job: the name offered is `eth-fetcher/jobs/eth_blocks_1_2_<id>.csv` | the file's own name `eth_blocks_1_2_<id>.csv` | not executed | Jobs.AsWrittenNameKeepsDirectories | Jobs.DownloadNameOfJob |
| main.go:72 | `for bn := batchStart; bn <= batchEnd; bn++` in `uint64`: when `batchEnd` is 2^64 - 1 the condition always holds and `bn` wraps to 0 | `start = 2^64 - 500`, `end = 2^64 - 1`: after block 2^64 - 1 it launches fetches for blocks 0, 1, 2, … and never reaches `wg.Wait()` | visit exactly the blocks of the batch, all inside `[start, end]`, as the loop does whenever `batchEnd < 2^64 - 1` (`AsWrittenBlocksBelowTop`) | not executed | Batches.AsWrittenInnerLoopNeverEnds | Batches.BatchesOrdered |

=== FILE: analyzer.dfy ===
/** The pure part of the analyzer: per-block gas used, total priority
    tips, the timestamp, and the cache row written for a fetched block and
    read back on a later request (analyzer.go:118-191). */
module Analyzer {
  import opened Results
  import opened Numerals
  import opened Hex

  /** One transaction of an `eth_getBlockByNumber` reply, quantities as hex text. */
  datatype Tx = Tx(gasPrice: string, gas: string)

  /** The fields of a block reply the analyzer looks at. */
  datatype RpcBlock = RpcBlock(
    number: string,
    gasUsed: string,
    baseFeePerGas: string,
    timestamp: string,
    transactions: seq<Tx>)

  /** What `GetBlockGasAndTips` hands back for one block. */
  datatype Record = Record(timestamp: int, gasUsed: nat, tips: nat)

  /** The tip of one transaction: the price above the base fee, clamped at
      zero, times the gas limit. */
  function Tip(baseFee: nat, gasPrice: nat, gas: nat): (t: nat)
    ensures t <= gasPrice * gas
    ensures t == 0 <==> gasPrice <= baseFee || gas == 0
    ensures gasPrice > baseFee ==> t == (gasPrice - baseFee) * gas
  {
    var tip: int := gasPrice - baseFee;
    var clamped: nat := if tip < 0 then 0 else tip;
    clamped * gas
  }

  /** Both quantities of a transaction decode. */
  predicate TxWellFormed(tx: Tx)
  {
    AllDigits(StripHex(tx.gasPrice), 16) && AllDigits(StripHex(tx.gas), 16)
  }

  predicate TxsWellFormed(txs: seq<Tx>)
  {
    forall i :: 0 <= i < |txs| ==> TxWellFormed(txs[i])
  }

  /** The tip of a well-formed transaction under the given base fee. */
  function TxTip(baseFee: nat, tx: Tx): nat
    requires TxWellFormed(tx)
  {
    Tip(baseFee, Value(StripHex(tx.gasPrice), 16), Value(StripHex(tx.gas), 16))
  }

  /** Reference definition: the sum of the transactions' tips. */
  function TotalTips(baseFee: nat, txs: seq<Tx>): nat
    requires TxsWellFormed(txs)
  {
    if |txs| == 0 then 0 else TxTip(baseFee, txs[0]) + TotalTips(baseFee, txs[1..])
  }

  /** The `Reduce` over the mapped transactions, left to right from the
      accumulator: each transaction's quantities are decoded in turn and
      the first one that does not decode panics. */
  function ReduceTips(baseFee: nat, txs: seq<Tx>, acc: nat): (r: Result<nat>)
    ensures r.Ok? <==> TxsWellFormed(txs)
    ensures r.Ok? ==> r.value == acc + TotalTips(baseFee, txs)
    decreases |txs|
  {
    if |txs| == 0 then Ok(acc)
    else
      TxsWellFormedCons(baseFee, txs);
      match HexToBig(txs[0].gasPrice)
      case Panic(reason) => Panic(reason)
      case Ok(gasPrice) =>
        match HexToBig(txs[0].gas)
        case Panic(reason) => Panic(reason)
        case Ok(gas) => ReduceTips(baseFee, txs[1..], acc + Tip(baseFee, gasPrice, gas))
  }

  /** A non-empty list is well formed when its head and its tail are, and
      then its total is the head's tip plus the tail's total. */
  lemma TxsWellFormedCons(baseFee: nat, txs: seq<Tx>)
    requires |txs| > 0
    ensures TxsWellFormed(txs) <==> TxWellFormed(txs[0]) && TxsWellFormed(txs[1..])
    ensures TxsWellFormed(txs) ==> TotalTips(baseFee, txs) == TxTip(baseFee, txs[0]) + TotalTips(baseFee, txs[1..])
  {
    if TxWellFormed(txs[0]) && TxsWellFormed(txs[1..]) {
      forall i | 0 <= i < |txs| ensures TxWellFormed(txs[i]) {
        if i > 0 {
          assert txs[i] == txs[1..][i - 1];
        }
      }
    }
  }

  /** `calculateTotalTips`: the base fee is decoded first (an absent field,
      the empty string, counts as zero), then the transactions are folded
      from zero. */
  function CalculateTotalTips(block: RpcBlock): (r: Result<nat>)
    ensures r.Ok? <==> AllDigits(StripHex(block.baseFeePerGas), 16) && TxsWellFormed(block.transactions)
    ensures r.Ok? ==> r.value == TotalTips(Value(StripHex(block.baseFeePerGas), 16), block.transactions)
    ensures block.transactions == [] && AllDigits(StripHex(block.baseFeePerGas), 16) ==> r == Ok(0)
  {
    match HexToBig(block.baseFeePerGas)
    case Panic(reason) => Panic(reason)
    case Ok(baseFee) => ReduceTips(baseFee, block.transactions, 0)
  }

  /** Splitting the transaction list splits the total. */
  lemma {:induction false} TotalTipsAppend(baseFee: nat, a: seq<Tx>, b: seq<Tx>)
    requires TxsWellFormed(a) && TxsWellFormed(b)
    ensures TxsWellFormed(a + b)
    ensures TotalTips(baseFee, a + b) == TotalTips(baseFee, a) + TotalTips(baseFee, b)
    decreases |a|
  {
    if |a| > 0 {
      assert (a + b)[1..] == a[1..] + b;
      TotalTipsAppend(baseFee, a[1..], b);
    } else {
      assert a + b == b;
    }
  }

  /** The total does not depend on the order of the transactions. */
  lemma {:induction false} TotalTipsPermutation(baseFee: nat, a: seq<Tx>, b: seq<Tx>)
    requires TxsWellFormed(a) && multiset(a) == multiset(b)
    ensures TxsWellFormed(b)
    ensures TotalTips(baseFee, a) == TotalTips(baseFee, b)
    decreases |a|
  {
    WellFormedPermutation(a, b);
    if |a| == 0 {
      assert |b| == |multiset(b)| == 0;
    } else {
      var i := PickMatch(a, b);
      TxsWellFormedCons(baseFee, a);
      TotalTipsPermutation(baseFee, a[1..], b[..i] + b[i + 1..]);
      TotalTipsRemove(baseFee, b, i);
    }
  }

  /** The head of `a` occurs in any reordering `b`, and removing it from
      both leaves reorderings of each other. */
  lemma PickMatch<T>(a: seq<T>, b: seq<T>) returns (i: nat)
    requires |a| > 0 && multiset(a) == multiset(b)
    ensures i < |b| && b[i] == a[0]
    ensures multiset(a[1..]) == multiset(b[..i] + b[i + 1..])
  {
    assert a[0] in multiset(b);
    i :| 0 <= i < |b| && b[i] == a[0];
    MultisetRemove(b, i);
    assert a == [a[0]] + a[1..];
    assert multiset(a) == multiset{a[0]} + multiset(a[1..]);
  }

  /** Reordering keeps every transaction well formed. */
  lemma WellFormedPermutation(a: seq<Tx>, b: seq<Tx>)
    requires TxsWellFormed(a) && multiset(a) == multiset(b)
    ensures TxsWellFormed(b)
  {
    forall i | 0 <= i < |b| ensures TxWellFormed(b[i]) {
      assert b[i] in multiset(a);
      var j :| 0 <= j < |a| && a[j] == b[i];
    }
  }

  /** Removing one element from a sequence removes one copy from its multiset. */
  lemma MultisetRemove<T>(s: seq<T>, i: nat)
    requires i < |s|
    ensures multiset(s[..i] + s[i + 1..]) == multiset(s) - multiset{s[i]}
  {
    assert s == s[..i] + [s[i]] + s[i + 1..];
  }

  /** Taking one transaction out of the list takes its tip out of the total. */
  lemma TotalTipsRemove(baseFee: nat, txs: seq<Tx>, i: nat)
    requires TxsWellFormed(txs) && i < |txs|
    ensures TxsWellFormed(txs[..i] + txs[i + 1..])
    ensures TotalTips(baseFee, txs) == TxTip(baseFee, txs[i]) + TotalTips(baseFee, txs[..i] + txs[i + 1..])
  {
    var tail := [txs[i]] + txs[i + 1..];
    assert txs == txs[..i] + tail;
    TotalTipsAppend(baseFee, txs[..i], tail);
    TotalTipsAppend(baseFee, txs[..i], txs[i + 1..]);
    assert tail[1..] == txs[i + 1..];
  }

  /** Adding a transaction anywhere in the list adds its tip to the total,
      so the total never decreases. */
  lemma AddTransaction(baseFee: nat, txs: seq<Tx>, k: nat, tx: Tx)
    requires TxsWellFormed(txs) && TxWellFormed(tx) && k <= |txs|
    ensures TxsWellFormed(txs[..k] + [tx] + txs[k..])
    ensures TotalTips(baseFee, txs[..k] + [tx] + txs[k..]) == TotalTips(baseFee, txs) + TxTip(baseFee, tx)
    ensures TotalTips(baseFee, txs[..k] + [tx] + txs[k..]) >= TotalTips(baseFee, txs)
  {
    var grown := txs[..k] + [tx] + txs[k..];
    assert multiset(grown) == multiset([tx] + txs) by {
      assert txs == txs[..k] + txs[k..];
    }
    assert TxsWellFormed([tx] + txs);
    TotalTipsPermutation(baseFee, [tx] + txs, grown);
    assert ([tx] + txs)[1..] == txs;
  }

  /** Reordering a block's transactions changes neither whether the tip
      computation succeeds nor the total it yields (the panic message may
      name a different offending transaction). */
  lemma CalculateTotalTipsReorder(block: RpcBlock, reordered: seq<Tx>)
    requires multiset(block.transactions) == multiset(reordered)
    ensures CalculateTotalTips(block).Ok? <==> CalculateTotalTips(block.(transactions := reordered)).Ok?
    ensures CalculateTotalTips(block).Ok? ==>
              CalculateTotalTips(block).value == CalculateTotalTips(block.(transactions := reordered)).value
  {
    var fee := StripHex(block.baseFeePerGas);
    if TxsWellFormed(block.transactions) && AllDigits(fee, 16) {
      TotalTipsPermutation(Value(fee, 16), block.transactions, reordered);
    } else if TxsWellFormed(reordered) && AllDigits(fee, 16) {
      TotalTipsPermutation(Value(fee, 16), reordered, block.transactions);
    }
  }

  /** `getBlockGasUsed`: the block's gas used, decoded like every quantity. */
  function BlockGasUsed(block: RpcBlock): (r: Result<nat>)
    ensures r.Ok? <==> AllDigits(StripHex(block.gasUsed), 16)
    ensures r.Ok? ==> r.value == Value(StripHex(block.gasUsed), 16)
    ensures r.Panic? ==> r.reason == "invalid hex string: " + StripHex(block.gasUsed)
  {
    HexToBig(block.gasUsed)
  }

  /** The timestamp (analyzer.go:178-181): one "0x" trimmed, then an
      optional sign and hexadecimal digits whose signed value fits 64
      bits; anything else panics with the reason `strconv` reports. */
  function BlockTimestamp(block: RpcBlock): (r: Result<int>)
    ensures var neg, digits := SplitSign(StripHex(block.timestamp)).0, SplitSign(StripHex(block.timestamp)).1;
      r.Ok? <==> |digits| > 0 && AllDigits(digits, 16) && FitsInt64(neg, Value(digits, 16))
    ensures var neg, digits := SplitSign(StripHex(block.timestamp)).0, SplitSign(StripHex(block.timestamp)).1;
      r.Ok? ==> Int64Min <= r.value <= Int64Max && r.value == if neg then -(Value(digits, 16) as int) else Value(digits, 16)
    ensures r.Panic? ==> r.reason == ParseFailure(SplitSign(StripHex(block.timestamp)).1)
  {
    ParseInt64Hex(StripHex(block.timestamp))
  }

  /** A timestamp the node writes as "0x" and lower-case digits reads back
      as the number written. */
  lemma TimestampRoundTrip(block: RpcBlock, t: nat)
    requires t <= Int64Max && block.timestamp == HexEncode(t)
    ensures BlockTimestamp(block) == Ok(t)
  {
    assert StripHex(block.timestamp) == FormatInt64Hex(t);
    ParseFormatInt64(t);
  }

  /** The fresh-fetch path of `GetBlockGasAndTips` once a block reply has
      arrived: gas used, then tips, then the timestamp, each step able to panic. */
  function Analyze(block: RpcBlock): (r: Result<Record>)
    ensures r.Ok? <==> BlockGasUsed(block).Ok? && CalculateTotalTips(block).Ok? && BlockTimestamp(block).Ok?
    ensures r.Ok? ==> r.value == Record(BlockTimestamp(block).value, BlockGasUsed(block).value,
                                        CalculateTotalTips(block).value)
  {
    match BlockGasUsed(block)
    case Panic(reason) => Panic(reason)
    case Ok(gas) =>
      match CalculateTotalTips(block)
      case Panic(reason) => Panic(reason)
      case Ok(tips) =>
        match BlockTimestamp(block)
        case Panic(reason) => Panic(reason)
        case Ok(ts) => Ok(Record(ts, gas, tips))
  }

  /** One row of the `block_cache` table. */
  datatype CacheEntry = CacheEntry(timestamp: int, gasUsed: string, totalTips: string)

  /** The row inserted after a fresh fetch: the parsed timestamp, the gas
      used exactly as the node sent it, and the tips as `"0x%x"`. */
  function CacheEntryFor(block: RpcBlock, rec: Record): (e: CacheEntry)
    ensures e.timestamp == rec.timestamp && e.gasUsed == block.gasUsed
    ensures HexToBig(e.totalTips) == Ok(rec.tips)
  {
    HexRoundTrip(rec.tips);
    CacheEntry(rec.timestamp, block.gasUsed, HexEncode(rec.tips))
  }

  /** A cache hit: both text columns are decoded with `hexToBig`. */
  function ReadCacheEntry(e: CacheEntry): (r: Result<Record>)
    ensures r.Ok? <==> AllDigits(StripHex(e.gasUsed), 16) && AllDigits(StripHex(e.totalTips), 16)
    ensures r.Ok? ==> r.value == Record(e.timestamp, Value(StripHex(e.gasUsed), 16), Value(StripHex(e.totalTips), 16))
    ensures r.Panic? ==> r.reason == "invalid hex string: " + (if AllDigits(StripHex(e.gasUsed), 16) then StripHex(e.totalTips) else StripHex(e.gasUsed))
  {
    match HexToBig(e.gasUsed)
    case Panic(reason) => Panic(reason)
    case Ok(gas) =>
      match HexToBig(e.totalTips)
      case Panic(reason) => Panic(reason)
      case Ok(tips) => Ok(Record(e.timestamp, gas, tips))
  }

  /** A block served from the cache carries exactly the values the fresh
      fetch that filled the cache returned. */
  lemma CacheRoundTrip(block: RpcBlock)
    requires Analyze(block).Ok?
    ensures ReadCacheEntry(CacheEntryFor(block, Analyze(block).value)) == Analyze(block)
  {
  }
}

=== FILE: batches.dfy ===
/** How `parallelFetcher` cuts the requested range into batches
    (main.go:61-65): `batchSize` consecutive block numbers per batch, the
    last batch clamped at `end`. */
module Batches {
  import opened Numerals

  /** `const batchSize = 500`. */
  const BatchSize: nat := 500

  /** The inclusive block range `[first, last]` of one batch. */
  datatype Batch = Batch(first: nat, last: nat)

  function Min(a: int, b: int): int
  {
    if a <= b then a else b
  }

  /** The batches the loop visits from `batchStart` on, in unbounded
      arithmetic: the behaviour the loop is evidently meant to have. */
  function BatchesFrom(batchStart: nat, end: nat): seq<Batch>
    decreases end + 1 - batchStart
  {
    if batchStart > end then []
    else [Batch(batchStart, Min(batchStart + BatchSize - 1, end))] + BatchesFrom(batchStart + BatchSize, end)
  }

  /** The batches from `batchStart` on lie inside `[batchStart, end]`,
      exist exactly when that range is non-empty, and run from
      `batchStart` to `end`. */
  lemma {:induction false} BatchesFromBounds(batchStart: nat, end: nat)
    ensures var r := BatchesFrom(batchStart, end);
      && (forall k :: 0 <= k < |r| ==> batchStart <= r[k].first <= r[k].last <= end)
      && (batchStart <= end <==> r != [])
      && (r != [] ==> r[0].first == batchStart && r[|r| - 1].last == end)
    decreases end + 1 - batchStart
  {
    if batchStart <= end {
      var r := BatchesFrom(batchStart, end);
      BatchesFromBounds(batchStart + BatchSize, end);
      assert r[1..] == BatchesFrom(batchStart + BatchSize, end);
      forall k | 1 <= k < |r| ensures batchStart <= r[k].first <= r[k].last <= end {
        assert r[k] == r[1..][k - 1];
      }
    }
  }

  /** The batches of the request `[start, end]`. */
  function Partition(start: nat, end: nat): (r: seq<Batch>)
    ensures start <= end <==> r != []
    ensures r != [] ==> r[0] == Batch(start, Min(start + BatchSize - 1, end)) && r[|r| - 1].last == end
  {
    BatchesFromBounds(start, end);
    BatchesFrom(start, end)
  }

  /** The batch that holds block `n` of a range starting at `start`. */
  function BatchIndex(start: nat, n: nat): nat
    requires start <= n
  {
    (n - start) / BatchSize
  }

  /** Batch `k` is `[start + 500k, min(start + 500k + 499, end)]`, there
      are just enough batches to reach `end`, and none is empty. */
  lemma {:induction false} BatchesShape(start: nat, end: nat)
    ensures |Partition(start, end)| == if end < start then 0 else (end - start) / BatchSize + 1
    ensures forall k :: 0 <= k < |Partition(start, end)| ==>
              Partition(start, end)[k] == Batch(start + BatchSize * k, Min(start + BatchSize * k + BatchSize - 1, end))
    decreases end + 1 - start
  {
    var bs := Partition(start, end);
    if start <= end {
      BatchesShape(start + BatchSize, end);
      assert bs[1..] == Partition(start + BatchSize, end);
      forall k | 1 <= k < |bs|
        ensures bs[k] == Batch(start + BatchSize * k, Min(start + BatchSize * k + BatchSize - 1, end))
      {
        assert bs[k] == bs[1..][k - 1];
      }
    }
  }

  /** The batches are non-empty, lie inside the range, and follow one
      another in increasing order without overlapping. */
  lemma BatchesOrdered(start: nat, end: nat)
    ensures var bs := Partition(start, end);
      && (forall k :: 0 <= k < |bs| ==> start <= bs[k].first <= bs[k].last <= end)
      && (forall j, k :: 0 <= j < k < |bs| ==> bs[j].last < bs[k].first)
  {
    BatchesShape(start, end);
  }

  /** The batches are consecutive, start at `start`, end at `end`, and
      every block of the range lies in exactly one of them, the one
      `BatchIndex` names. */
  lemma BatchesPartition(start: nat, end: nat)
    ensures var bs := Partition(start, end);
      && (forall k :: 0 <= k < |bs| - 1 ==> bs[k + 1].first == bs[k].last + 1)
      && (start <= end ==> |bs| > 0 && bs[0].first == start && bs[|bs| - 1].last == end)
      && (forall n :: start <= n <= end ==>
            BatchIndex(start, n) < |bs| && bs[BatchIndex(start, n)].first <= n <= bs[BatchIndex(start, n)].last)
      && (forall k, n :: 0 <= k < |bs| && bs[k].first <= n <= bs[k].last ==> start <= n && k == BatchIndex(start, n))
  {
    BatchesShape(start, end);
  }

  /** A block of batch `k` is one `BatchIndex` sends to batch `k`. */
  lemma BatchIndexOfMember(start: nat, end: nat, k: nat, n: nat)
    requires k < |Partition(start, end)|
    requires Partition(start, end)[k].first <= n <= Partition(start, end)[k].last
    ensures start <= n && BatchIndex(start, n) == k
  {
    BatchesPartition(start, end);
  }

  /** The `batchEnd` main.go:65 computes, with `uint64` wrap-around. */
  function AsWrittenBatchEnd(batchStart: nat, end: nat): nat
  {
    Min((batchStart + BatchSize - 1) % Uint64Modulus, end)
  }

  /** The first `fuel` batches the loop at main.go:64 visits as written,
      with `batchStart += batchSize` wrapping modulo 2^64. Each entry is
      `[batchStart, batchEnd]`. The inner loop over the entry (main.go:72)
      launches nothing when `batchEnd < batchStart`; when `batchEnd` is
      2^64 - 1 its own `bn++` wraps as well (`AsWrittenInnerLoopNeverEnds`). */
  function AsWrittenBatches(batchStart: nat, end: nat, fuel: nat): (r: seq<Batch>)
    ensures |r| <= fuel
    ensures r != [] <==> fuel > 0 && batchStart <= end
    ensures r != [] ==> r[0].first == batchStart
    ensures forall k :: 0 <= k < |r| ==> r[k].first <= end && r[k] == Batch(r[k].first, AsWrittenBatchEnd(r[k].first, end))
    ensures forall k :: 0 < k < |r| ==> r[k].first == (r[k - 1].first + BatchSize) % Uint64Modulus
    decreases fuel
  {
    if fuel == 0 || batchStart > end then []
    else [Batch(batchStart, AsWrittenBatchEnd(batchStart, end))]
         + AsWrittenBatches((batchStart + BatchSize) % Uint64Modulus, end, fuel - 1)
  }

  /** Away from the top of the `uint64` range the loop as written visits
      exactly the intended batches. */
  lemma {:induction false} AsWrittenAgreesBelowTop(batchStart: nat, end: nat, fuel: nat)
    requires end + BatchSize < Uint64Modulus
    ensures AsWrittenBatches(batchStart, end, fuel)
            == BatchesFrom(batchStart, end)[..Min(fuel, |BatchesFrom(batchStart, end)|)]
    decreases fuel
  {
    if fuel > 0 && batchStart <= end {
      NoWrapBelowTop(batchStart, end);
      AsWrittenAgreesBelowTop(batchStart + BatchSize, end, fuel - 1);
      var intended := BatchesFrom(batchStart, end);
      assert intended[1..] == BatchesFrom(batchStart + BatchSize, end);
      assert intended[..Min(fuel, |intended|)]
             == [intended[0]] + intended[1..][..Min(fuel - 1, |intended| - 1)];
    }
  }

  /** Below the top of the range neither `uint64` addition wraps. */
  lemma NoWrapBelowTop(batchStart: nat, end: nat)
    requires batchStart <= end && end + BatchSize < Uint64Modulus
    ensures AsWrittenBatchEnd(batchStart, end) == Min(batchStart + BatchSize - 1, end)
    ensures (batchStart + BatchSize) % Uint64Modulus == batchStart + BatchSize
  {
  }

  /** The wrap-around: for `start = end = 2^64 - 1` the single intended
      batch is `[2^64 - 1, 2^64 - 1]`, but as written `batchEnd` wraps to
      498 (so that block is never fetched) and `batchStart` wraps to 499,
      so the loop goes on over blocks 499, 500, ... outside the request. */
  lemma AsWrittenWrapsAtTop()
    ensures var top := Uint64Modulus - 1;
      && Partition(top, top) == [Batch(top, top)]
      && AsWrittenBatches(top, top, 3) == [Batch(top, 498), Batch(499, 998), Batch(999, 1498)]
  {
    var top := Uint64Modulus - 1;
    assert BatchesFrom(top + BatchSize, top) == [];
    assert AsWrittenBatches(1499, top, 0) == [];
  }

  /** The first `fuel` block numbers the inner loop at main.go:72 visits
      as written: it tests `bn <= batchEnd`, then steps `bn++` in `uint64`. */
  function AsWrittenBlocks(bn: nat, batchEnd: nat, fuel: nat): (r: seq<nat>)
    requires bn < Uint64Modulus
    ensures |r| <= fuel
    ensures r != [] <==> fuel > 0 && bn <= batchEnd
    ensures r != [] ==> r[0] == bn
    decreases fuel
  {
    if fuel == 0 || bn > batchEnd then []
    else [bn] + AsWrittenBlocks((bn + 1) % Uint64Modulus, batchEnd, fuel - 1)
  }

  /** The `k`-th block the loop visits is `bn + k` modulo 2^64. */
  lemma {:induction false} AsWrittenBlocksValues(bn: nat, batchEnd: nat, fuel: nat)
    requires bn < Uint64Modulus
    ensures forall k :: 0 <= k < |AsWrittenBlocks(bn, batchEnd, fuel)| ==>
              AsWrittenBlocks(bn, batchEnd, fuel)[k] == (bn + k) % Uint64Modulus
    decreases fuel
  {
    var r := AsWrittenBlocks(bn, batchEnd, fuel);
    if r != [] {
      var next := (bn + 1) % Uint64Modulus;
      var rest := AsWrittenBlocks(next, batchEnd, fuel - 1);
      assert r == [bn] + rest;
      AsWrittenBlocksValues(next, batchEnd, fuel - 1);
      forall k | 1 <= k < |r|
        ensures r[k] == (bn + k) % Uint64Modulus
      {
        assert r[k] == rest[k - 1] == (next + (k - 1)) % Uint64Modulus;
        WrappedStep(bn, k - 1);
        assert bn + 1 + (k - 1) == bn + k;
      }
    }
  }

  /** Stepping once modulo 2^64 and then `j` more is stepping `j + 1`. */
  lemma WrappedStep(bn: nat, j: nat)
    requires bn < Uint64Modulus
    ensures ((bn + 1) % Uint64Modulus + j) % Uint64Modulus == (bn + 1 + j) % Uint64Modulus
  {
    if bn + 1 == Uint64Modulus {
      assert (bn + 1 + j) % Uint64Modulus == j % Uint64Modulus;
    }
  }

  /** Below the top of `uint64` the loop, given enough steps, visits
      exactly `bn, bn + 1, ..., batchEnd` and stops. */
  lemma {:induction false} AsWrittenBlocksBelowTop(bn: nat, batchEnd: nat, fuel: nat)
    requires bn <= batchEnd + 1 && batchEnd < Uint64Modulus - 1
    requires fuel >= batchEnd + 1 - bn
    ensures var r := AsWrittenBlocks(bn, batchEnd, fuel);
      |r| == batchEnd + 1 - bn && forall k :: 0 <= k < |r| ==> r[k] == bn + k
    decreases fuel
  {
    if bn <= batchEnd {
      AsWrittenBlocksBelowTop(bn + 1, batchEnd, fuel - 1);
    }
  }

  /** With `batchEnd` at the top of `uint64`, `bn <= batchEnd` always
      holds: however many steps are allowed, the loop takes every one. */
  lemma {:induction false} AsWrittenBlocksAtTop(bn: nat, fuel: nat)
    requires bn < Uint64Modulus
    ensures |AsWrittenBlocks(bn, Uint64Modulus - 1, fuel)| == fuel
    decreases fuel
  {
    if fuel > 0 {
      AsWrittenBlocksAtTop((bn + 1) % Uint64Modulus, fuel - 1);
    }
  }

  /** For `start = 2^64 - 500` and `end = 2^64 - 1` the one batch ends at
      2^64 - 1, and its inner loop runs past that block to block 0 and on,
      never reaching `wg.Wait()`. */
  lemma AsWrittenInnerLoopNeverEnds(fuel: nat)
    requires fuel > BatchSize
    ensures var top := Uint64Modulus - 1;
      var r := AsWrittenBlocks(Uint64Modulus - BatchSize, top, fuel);
      && AsWrittenBatches(Uint64Modulus - BatchSize, top, 1) == [Batch(Uint64Modulus - BatchSize, top)]
      && |r| == fuel && r[BatchSize - 1] == top && r[BatchSize] == 0
  {
    var top := Uint64Modulus - 1;
    AsWrittenBlocksAtTop(Uint64Modulus - BatchSize, fuel);
    AsWrittenBlocksValues(Uint64Modulus - BatchSize, top, fuel);
  }
}

=== FILE: fetcher.dfy ===
/** `parallelFetcher` (main.go:47-129): the batch loop, its cancellation
    check, the per-batch sort and contiguous walk, the CSV rows written,
    and the progress reported to the job after every batch.

    The concurrent fan-out only decides WHICH of a batch's blocks were
    fetched by the time the batch joins; the model receives that outcome
    as input, one list of results per batch in completion order. */
module Fetcher {
  import opened Results
  import opened Numerals
  import opened Batches
  import opened BatchWalk

  /** The header written once at the top of the file (main.go:59): four names. */
  const Header: seq<string> := ["block_number", "timestamp", "gas_used", "tips"]

  /** The fields written for one block (main.go:109-113): block number,
      gas used and tips in decimal. The timestamp column is never filled. */
  function RowFields(row: Row): seq<string>
  {
    [Format(row.blockNum, 10), Format(row.gasUsed, 10), Format(row.tips, 10)]
  }

  /** The data lines written for a list of rows, in order. */
  function Lines(rows: seq<Row>): (ls: seq<seq<string>>)
    ensures |ls| == |rows|
    ensures forall i :: 0 <= i < |rows| ==> ls[i] == RowFields(rows[i])
  {
    seq(|rows|, i requires 0 <= i < |rows| => RowFields(rows[i]))
  }

  /** Appending rows to the file appends their lines. */
  lemma CsvAppend(a: seq<Row>, b: seq<Row>)
    ensures Csv(a) + Lines(b) == Csv(a + b)
  {
    var l, la, lb := Lines(a + b), Lines(a), Lines(b);
    forall i | 0 <= i < |l|
      ensures l[i] == (la + lb)[i]
    {
      if i < |a| {
        assert (a + b)[i] == a[i];
      } else {
        assert (a + b)[i] == b[i - |a|];
      }
    }
    assert l == la + lb;
    assert [Header] + la + lb == [Header] + (la + lb);
  }

  /** The whole file: the header, then one line per row. */
  function Csv(rows: seq<Row>): seq<seq<string>>
  {
    [Header] + Lines(rows)
  }

  /** A file whose rows are the gapless run from `start` has a four-name
      header and then, on line `i + 1`, exactly three canonical decimal
      fields reading back as block `start + i`, its gas used and its tips. */
  lemma CsvShape(start: nat, rows: seq<Row>)
    requires forall i :: 0 <= i < |rows| ==> rows[i].blockNum == start + i
    ensures |Csv(rows)| == |rows| + 1 && |Csv(rows)[0]| == 4
    ensures forall i :: 0 <= i < |rows| ==> RowLineReadsBack(Csv(rows)[i + 1], start + i, rows[i])
  {
    forall i | 0 <= i < |rows| ensures RowLineReadsBack(Csv(rows)[i + 1], start + i, rows[i]) {
      assert Csv(rows)[i + 1] == RowFields(rows[i]);
      RowFieldsReadBack(rows[i]);
    }
  }

  /** A data line has three canonical decimal fields holding the block
      number, the gas used and the tips. */
  predicate RowLineReadsBack(line: seq<string>, blockNum: nat, row: Row)
  {
    && |line| == 3
    && Canonical(line[0], 10) && Canonical(line[1], 10) && Canonical(line[2], 10)
    && Value(line[0], 10) == blockNum
    && Value(line[1], 10) == row.gasUsed
    && Value(line[2], 10) == row.tips
  }

  /** The fields of one row read back as the row's numbers. */
  lemma RowFieldsReadBack(r: Row)
    ensures RowLineReadsBack(RowFields(r), r.blockNum, r)
  {
    FormatIsCanonical(r.blockNum, 10);
    FormatIsCanonical(r.gasUsed, 10);
    FormatIsCanonical(r.tips, 10);
    FormatRoundTrip(r.blockNum, 10);
    FormatRoundTrip(r.gasUsed, 10);
    FormatRoundTrip(r.tips, 10);
  }

  /** `job.LastWritten = lastWritten - 1` in `uint64` arithmetic
      (main.go:123): `cursor - 1` modulo 2^64, which is the last block
      written once a row exists; a cursor still at block 0 wraps around
      to 2^64 - 1. */
  function LastWrittenValue(cursor: nat): (v: nat)
    ensures v < Uint64Modulus
    ensures 0 < cursor <= Uint64Modulus ==> v == cursor - 1
    ensures cursor == 0 ==> v == Uint64Modulus - 1
  {
    (cursor - 1) % Uint64Modulus
  }

  /** Cancellation is seen before launching some block of batch `b`: the
      context is observed done at every check from block `cancelFrom` on,
      and the checks run once per block in ascending order. */
  predicate CancelledIn(cancelFrom: Option<nat>, b: Batch)
  {
    cancelFrom.Some? && cancelFrom.value <= b.last
  }

  /** Every result gathered for batch `k` is a block of batch `k`. */
  predicate FetchedWithin(fetched: seq<seq<BlockResult>>, batches: seq<Batch>)
  {
    && |fetched| == |batches|
    && forall k, r :: 0 <= k < |batches| && r in fetched[k] ==> batches[k].first <= r.blockNum <= batches[k].last
  }

  /** Every block of batch `b` was fetched. */
  predicate AllFetched(results: seq<BlockResult>, b: Batch)
  {
    forall n :: b.first <= n <= b.last ==> n in Ids(results)
  }

  /** The cursor going into batch `k`. */
  function CursorBefore(start: nat, cursors: seq<nat>, k: nat): nat
    requires k <= |cursors|
  {
    if k == 0 then start else cursors[k - 1]
  }

  /** The rows are blocks `start, start + 1, ...` in order, each carrying
      the data fetched for it in its own batch. */
  predicate GaplessRows(start: nat, fetched: seq<seq<BlockResult>>, rows: seq<Row>)
  {
    forall i :: 0 <= i < |rows| ==>
      && rows[i].blockNum == start + i
      && BatchIndex(start, start + i) < |fetched|
      && rows[i] in RowsOf(fetched[BatchIndex(start, start + i)])
  }

  /** After batch `k` the cursor has not moved back and has not left the batch. */
  predicate CursorsWithinBatches(start: nat, batches: seq<Batch>, cursors: seq<nat>)
  {
    && |cursors| <= |batches|
    && forall k :: 0 <= k < |cursors| ==> CursorBefore(start, cursors, k) <= cursors[k] <= batches[k].last + 1
  }

  /** The walk over batch `k` passed exactly the consecutive blocks fetched
      from the cursor on, and stopped at the first one missing. */
  predicate WalksMaximal(start: nat, fetched: seq<seq<BlockResult>>, cursors: seq<nat>)
  {
    && |cursors| <= |fetched|
    && (forall k, n :: 0 <= k < |cursors| && CursorBefore(start, cursors, k) <= n < cursors[k] ==> n in Ids(fetched[k]))
    && (forall k :: 0 <= k < |cursors| ==> cursors[k] !in Ids(fetched[k]))
  }

  /** A fully fetched batch entered at its first block is written completely. */
  predicate CompleteBatchesWritten(start: nat, fetched: seq<seq<BlockResult>>, batches: seq<Batch>, cursors: seq<nat>)
  {
    && |cursors| <= |fetched| && |cursors| <= |batches|
    && forall k :: 0 <= k < |cursors| ==>
         (AllFetched(fetched[k], batches[k]) && CursorBefore(start, cursors, k) == batches[k].first ==>
            cursors[k] == batches[k].last + 1)
  }

  /** Once a batch stops short of its end, no later batch moves the cursor. */
  predicate GapsPersist(batches: seq<Batch>, cursors: seq<nat>)
  {
    && |cursors| <= |batches|
    && forall j, k :: 0 <= j <= k < |cursors| && cursors[j] <= batches[j].last ==> cursors[k] == cursors[j]
  }

  /** The observable effect of one call: the error returned, the lines of
      the file, the rows they carry, the cursor after each finished batch,
      and the `LastWritten` value stored after each finished batch. */
  datatype Run = Run(
    err: Option<string>,
    csv: seq<seq<string>>,
    rows: seq<Row>,
    cursors: seq<nat>,
    progress: seq<nat>)

  /** A row lies inside the batch whose results produced it. */
  lemma RowInBatch(results: seq<BlockResult>, b: Batch, row: Row)
    requires forall r :: r in results ==> b.first <= r.blockNum <= b.last
    requires row in RowsOf(results)
    ensures b.first <= row.blockNum <= b.last
  {
    var r :| r in results && RowOf(r) == row;
  }

  /** Appending the rows of batch `k` keeps the rows gapless. */
  lemma ExtendRows(start: nat, end: nat, fetched: seq<seq<BlockResult>>, rows: seq<Row>, k: nat)
    requires FetchedWithin(fetched, Partition(start, end)) && k < |fetched|
    requires GaplessRows(start, fetched, rows)
    ensures GaplessRows(start, fetched, rows + BatchStep(fetched[k], start + |rows|).0)
  {
    var batchRows := BatchStep(fetched[k], start + |rows|).0;
    var all := rows + batchRows;
    forall i | 0 <= i < |all|
      ensures all[i].blockNum == start + i
      ensures BatchIndex(start, start + i) < |fetched|
      ensures all[i] in RowsOf(fetched[BatchIndex(start, start + i)])
    {
      if i < |rows| {
        OldRowAt(start, fetched, rows, batchRows, i);
      } else {
        NewRowAt(start, end, fetched, rows, k, i);
      }
    }
  }

  /** Appending rows leaves the earlier rows in place. */
  lemma OldRowAt(start: nat, fetched: seq<seq<BlockResult>>, rows: seq<Row>, batchRows: seq<Row>, i: nat)
    requires GaplessRows(start, fetched, rows) && i < |rows|
    ensures var all := rows + batchRows;
            && all[i].blockNum == start + i
            && BatchIndex(start, start + i) < |fetched|
            && all[i] in RowsOf(fetched[BatchIndex(start, start + i)])
  {
    assert (rows + batchRows)[i] == rows[i];
  }

  /** An appended row of batch `k` is block `start + i`, produced by batch `k`. */
  lemma NewRowAt(start: nat, end: nat, fetched: seq<seq<BlockResult>>, rows: seq<Row>, k: nat, i: nat)
    requires FetchedWithin(fetched, Partition(start, end)) && k < |fetched|
    requires |rows| <= i < |rows| + |BatchStep(fetched[k], start + |rows|).0|
    ensures var all := rows + BatchStep(fetched[k], start + |rows|).0;
            && all[i].blockNum == start + i
            && BatchIndex(start, start + i) == k < |fetched|
            && all[i] in RowsOf(fetched[k])
  {
    var batchRows := BatchStep(fetched[k], start + |rows|).0;
    assert (rows + batchRows)[i] == batchRows[i - |rows|];
    NewRowPlaced(start, end, fetched, k, start + |rows|, i - |rows|);
  }

  /** Row `j` written for batch `k` from cursor `cursor` is block
      `cursor + j`, which `BatchIndex` places in batch `k`. */
  lemma NewRowPlaced(start: nat, end: nat, fetched: seq<seq<BlockResult>>, k: nat, cursor: nat, j: nat)
    requires FetchedWithin(fetched, Partition(start, end)) && k < |fetched|
    requires j < |BatchStep(fetched[k], cursor).0|
    ensures var row := BatchStep(fetched[k], cursor).0[j];
            && row.blockNum == cursor + j && start <= cursor + j
            && BatchIndex(start, cursor + j) == k && row in RowsOf(fetched[k])
  {
    var row := BatchStep(fetched[k], cursor).0[j];
    RowInBatch(fetched[k], Partition(start, end)[k], row);
    BatchIndexOfMember(start, end, k, cursor + j);
  }

  /** The cursor after the next batch, entered at the current cursor. */
  function NextCursor(start: nat, fetched: seq<seq<BlockResult>>, cursors: seq<nat>): nat
    requires |cursors| < |fetched|
  {
    BatchStep(fetched[|cursors|], CursorBefore(start, cursors, |cursors|)).1
  }

  /** Appending a cursor leaves the earlier cursors, and the cursors
      going into earlier batches, as they were. */
  lemma AppendCursor(start: nat, cursors: seq<nat>, next: nat, j: nat)
    requires j <= |cursors|
    ensures CursorBefore(start, cursors + [next], j) == CursorBefore(start, cursors, j)
    ensures j < |cursors| ==> (cursors + [next])[j] == cursors[j]
    ensures (cursors + [next])[|cursors|] == next
  {
  }

  /** The next cursor stays inside the next batch. */
  lemma ExtendWithinBatches(start: nat, end: nat, fetched: seq<seq<BlockResult>>, cursors: seq<nat>)
    requires FetchedWithin(fetched, Partition(start, end)) && |cursors| < |fetched|
    requires CursorsWithinBatches(start, Partition(start, end), cursors)
    requires CursorBefore(start, cursors, |cursors|) <= Partition(start, end)[|cursors|].first
    ensures CursorsWithinBatches(start, Partition(start, end), cursors + [NextCursor(start, fetched, cursors)])
  {
    var batches := Partition(start, end);
    var k := |cursors|;
    var next := NextCursor(start, fetched, cursors);
    var cs := cursors + [next];
    NextCursorInBatch(start, end, fetched, cursors);
    forall j | 0 <= j < |cs|
      ensures CursorBefore(start, cs, j) <= cs[j] <= batches[j].last + 1
    {
      AppendCursor(start, cursors, next, j);
    }
  }

  /** The walk over the next batch ends at most one past the batch's last block. */
  lemma NextCursorInBatch(start: nat, end: nat, fetched: seq<seq<BlockResult>>, cursors: seq<nat>)
    requires FetchedWithin(fetched, Partition(start, end)) && |cursors| < |fetched|
    requires CursorBefore(start, cursors, |cursors|) <= Partition(start, end)[|cursors|].first
    ensures CursorBefore(start, cursors, |cursors|) <= NextCursor(start, fetched, cursors)
    ensures NextCursor(start, fetched, cursors) <= Partition(start, end)[|cursors|].last + 1
  {
    var k := |cursors|;
    var b := Partition(start, end)[k];
    var (batchRows, next) := BatchStep(fetched[k], CursorBefore(start, cursors, k));
    if |batchRows| > 0 {
      RowInBatch(fetched[k], b, batchRows[|batchRows| - 1]);
    } else {
      BatchesOrdered(start, end);
    }
  }

  /** The next walk is maximal, like every earlier one. */
  lemma ExtendWalksMaximal(start: nat, fetched: seq<seq<BlockResult>>, cursors: seq<nat>)
    requires |cursors| < |fetched|
    requires WalksMaximal(start, fetched, cursors)
    ensures WalksMaximal(start, fetched, cursors + [NextCursor(start, fetched, cursors)])
  {
    var k := |cursors|;
    var next := NextCursor(start, fetched, cursors);
    var cs := cursors + [next];
    forall j, n | 0 <= j < |cs| && CursorBefore(start, cs, j) <= n < cs[j]
      ensures n in Ids(fetched[j])
    {
      AppendCursor(start, cursors, next, j);
    }
    forall j | 0 <= j < |cs|
      ensures cs[j] !in Ids(fetched[j])
    {
      AppendCursor(start, cursors, next, j);
    }
  }

  /** A fully fetched next batch entered at its first block is written completely. */
  lemma ExtendCompleteBatches(start: nat, end: nat, fetched: seq<seq<BlockResult>>, cursors: seq<nat>)
    requires FetchedWithin(fetched, Partition(start, end)) && |cursors| < |fetched|
    requires CompleteBatchesWritten(start, fetched, Partition(start, end), cursors)
    ensures CompleteBatchesWritten(start, fetched, Partition(start, end), cursors + [NextCursor(start, fetched, cursors)])
  {
    var batches := Partition(start, end);
    var k := |cursors|;
    var next := NextCursor(start, fetched, cursors);
    var cs := cursors + [next];
    forall j | 0 <= j < |cs| && AllFetched(fetched[j], batches[j]) && CursorBefore(start, cs, j) == batches[j].first
      ensures cs[j] == batches[j].last + 1
    {
      AppendCursor(start, cursors, next, j);
      if j == k {
        NextBatchComplete(start, end, fetched, cursors);
      }
    }
  }

  /** A fully fetched next batch entered at its first block ends one past its last block. */
  lemma NextBatchComplete(start: nat, end: nat, fetched: seq<seq<BlockResult>>, cursors: seq<nat>)
    requires FetchedWithin(fetched, Partition(start, end)) && |cursors| < |fetched|
    requires AllFetched(fetched[|cursors|], Partition(start, end)[|cursors|])
    requires CursorBefore(start, cursors, |cursors|) == Partition(start, end)[|cursors|].first
    ensures NextCursor(start, fetched, cursors) == Partition(start, end)[|cursors|].last + 1
  {
    var k := |cursors|;
    var b := Partition(start, end)[k];
    BatchesOrdered(start, end);
    FullBatchAdvances(fetched[k], b.first, b);
  }

  /** A gap in an earlier batch leaves the cursor where it was. */
  lemma ExtendGapsPersist(start: nat, end: nat, fetched: seq<seq<BlockResult>>, cursors: seq<nat>)
    requires FetchedWithin(fetched, Partition(start, end)) && |cursors| < |fetched|
    requires GapsPersist(Partition(start, end), cursors)
    ensures GapsPersist(Partition(start, end), cursors + [NextCursor(start, fetched, cursors)])
  {
    var batches := Partition(start, end);
    var k := |cursors|;
    var next := NextCursor(start, fetched, cursors);
    var cs := cursors + [next];
    forall i, j | 0 <= i <= j < |cs| && cs[i] <= batches[i].last
      ensures cs[j] == cs[i]
    {
      AppendCursor(start, cursors, next, i);
      AppendCursor(start, cursors, next, j);
      if j == k && i < k {
        GapHoldsCursor(start, end, fetched, cursors, i);
      }
    }
  }

  /** After a gap in batch `i`, the next batch does not move the cursor. */
  lemma GapHoldsCursor(start: nat, end: nat, fetched: seq<seq<BlockResult>>, cursors: seq<nat>, i: nat)
    requires FetchedWithin(fetched, Partition(start, end)) && |cursors| < |fetched|
    requires GapsPersist(Partition(start, end), cursors)
    requires i < |cursors| && cursors[i] <= Partition(start, end)[i].last
    ensures NextCursor(start, fetched, cursors) == cursors[i]
  {
    var batches := Partition(start, end);
    var k := |cursors|;
    assert cursors[k - 1] == cursors[i];
    BatchesOrdered(start, end);
    assert cursors[i] < batches[k].first;
    GapStopsBatch(fetched[k], cursors[i]);
  }

  /** `CompleteBatchAdvances` for a batch whose results lie inside it. */
  lemma FullBatchAdvances(results: seq<BlockResult>, cursor: nat, b: Batch)
    requires cursor == b.first <= b.last
    requires AllFetched(results, b)
    requires forall r :: r in results ==> b.first <= r.blockNum <= b.last
    ensures BatchStep(results, cursor).1 == b.last + 1
  {
    CompleteBatchAdvances(results, cursor, b.last);
  }

  /** What holds after the first `|cursors|` batches have been walked
      without cancellation. */
  predicate FetchState(
    start: nat, end: nat, fetched: seq<seq<BlockResult>>, cancelFrom: Option<nat>,
    rows: seq<Row>, cursors: seq<nat>, progress: seq<nat>)
  {
    && Bookkeeping(start, end, fetched, cancelFrom, rows, cursors, progress)
    && GaplessRows(start, fetched, rows)
    && CursorsWithinBatches(start, Partition(start, end), cursors)
    && WalksMaximal(start, fetched, cursors)
    && CompleteBatchesWritten(start, fetched, Partition(start, end), cursors)
    && GapsPersist(Partition(start, end), cursors)
  }

  /** The cursor matches the rows written, the progress matches the
      cursors, no finished batch was cancelled, and a run missing nothing
      has reached the end of the last finished batch. */
  predicate Bookkeeping(
    start: nat, end: nat, fetched: seq<seq<BlockResult>>, cancelFrom: Option<nat>,
    rows: seq<Row>, cursors: seq<nat>, progress: seq<nat>)
  {
    var batches := Partition(start, end);
    && |cursors| <= |batches| && |progress| == |cursors|
    && start + |rows| == CursorBefore(start, cursors, |cursors|)
    && (|cursors| < |batches| ==> start + |rows| <= batches[|cursors|].first)
    && (forall j :: 0 <= j < |cursors| ==> progress[j] == LastWrittenValue(cursors[j]))
    && (forall j :: 0 <= j < |cursors| ==> !CancelledIn(cancelFrom, batches[j]))
    && (NothingMissed(start, end, fetched, cancelFrom) ==>
          start + |rows| == if cursors == [] then start else batches[|cursors| - 1].last + 1)
  }

  /** No cancellation, and every block of every batch was fetched. */
  predicate NothingMissed(start: nat, end: nat, fetched: seq<seq<BlockResult>>, cancelFrom: Option<nat>)
  {
    && cancelFrom.None?
    && |fetched| == |Partition(start, end)|
    && forall k :: 0 <= k < |fetched| ==> AllFetched(fetched[k], Partition(start, end)[k])
  }

  /** Nothing has been walked yet. */
  lemma FetchStateInit(start: nat, end: nat, fetched: seq<seq<BlockResult>>, cancelFrom: Option<nat>)
    ensures FetchState(start, end, fetched, cancelFrom, [], [], [])
  {
    var batches := Partition(start, end);
    if batches != [] {
      BatchesShape(start, end);
    }
  }

  /** Walking one more batch that is not cancelled keeps the bookkeeping. */
  lemma ExtendBookkeeping(
    start: nat, end: nat, fetched: seq<seq<BlockResult>>, cancelFrom: Option<nat>,
    rows: seq<Row>, cursors: seq<nat>, progress: seq<nat>, batchRows: seq<Row>, next: nat)
    requires Bookkeeping(start, end, fetched, cancelFrom, rows, cursors, progress)
    requires |cursors| < |Partition(start, end)|
    requires !CancelledIn(cancelFrom, Partition(start, end)[|cursors|])
    requires start + |rows + batchRows| == next <= Partition(start, end)[|cursors|].last + 1
    requires NothingMissed(start, end, fetched, cancelFrom) ==> next == Partition(start, end)[|cursors|].last + 1
    ensures Bookkeeping(start, end, fetched, cancelFrom,
              rows + batchRows, cursors + [next], progress + [LastWrittenValue(next)])
  {
    var batches := Partition(start, end);
    var k := |cursors|;
    var cursors', progress' := cursors + [next], progress + [LastWrittenValue(next)];
    assert CursorBefore(start, cursors', k + 1) == next;
    if k + 1 < |batches| {
      BatchesOrdered(start, end);
      assert batches[k].last < batches[k + 1].first;
    }
    forall j | 0 <= j < k + 1
      ensures progress'[j] == LastWrittenValue(cursors'[j])
      ensures !CancelledIn(cancelFrom, batches[j])
    {
    }
  }

  /** In a run missing nothing, the next batch is entered at its first
      block and so is written completely. */
  lemma ExtendNothingMissed(
    start: nat, end: nat, fetched: seq<seq<BlockResult>>, cancelFrom: Option<nat>,
    rows: seq<Row>, cursors: seq<nat>, next: nat)
    requires NothingMissed(start, end, fetched, cancelFrom)
    requires |cursors| < |Partition(start, end)|
    requires start + |rows| == CursorBefore(start, cursors, |cursors|)
    requires start + |rows| == if cursors == [] then start else Partition(start, end)[|cursors| - 1].last + 1
    requires CompleteBatchesWritten(start, fetched, Partition(start, end), cursors + [next])
    ensures next == Partition(start, end)[|cursors|].last + 1
  {
    var batches := Partition(start, end);
    var k := |cursors|;
    var cursors' := cursors + [next];
    BatchesPartition(start, end);
    assert start + |rows| == batches[k].first;
    assert CursorBefore(start, cursors', k) == batches[k].first;
    assert AllFetched(fetched[k], batches[k]);
  }

  /** Walking one more batch that is not cancelled keeps the state. */
  lemma FetchStateStep(
    start: nat, end: nat, fetched: seq<seq<BlockResult>>, cancelFrom: Option<nat>,
    rows: seq<Row>, cursors: seq<nat>, progress: seq<nat>, batchRows: seq<Row>, next: nat)
    requires FetchedWithin(fetched, Partition(start, end))
    requires FetchState(start, end, fetched, cancelFrom, rows, cursors, progress)
    requires |cursors| < |Partition(start, end)|
    requires !CancelledIn(cancelFrom, Partition(start, end)[|cursors|])
    requires (batchRows, next) == BatchStep(fetched[|cursors|], start + |rows|)
    ensures FetchState(start, end, fetched, cancelFrom,
              rows + batchRows, cursors + [next], progress + [LastWrittenValue(next)])
  {
    var k := |cursors|;
    assert NextCursor(start, fetched, cursors) == next;
    assert batchRows == BatchStep(fetched[k], start + |rows|).0;
    ExtendRows(start, end, fetched, rows, k);
    ExtendWithinBatches(start, end, fetched, cursors);
    ExtendWalksMaximal(start, fetched, cursors);
    ExtendCompleteBatches(start, end, fetched, cursors);
    ExtendGapsPersist(start, end, fetched, cursors);
    assert next <= Partition(start, end)[k].last + 1 by {
      assert CursorsWithinBatches(start, Partition(start, end), cursors + [next]);
      assert (cursors + [next])[k] == next;
    }
    if NothingMissed(start, end, fetched, cancelFrom) {
      ExtendNothingMissed(start, end, fetched, cancelFrom, rows, cursors, next);
    }
    ExtendBookkeeping(start, end, fetched, cancelFrom, rows, cursors, progress, batchRows, next);
  }

  /** A run that walked every batch of a fully fetched, uncancelled range
      wrote one row per block of the range. */
  lemma NothingMissedWritesAll(
    start: nat, end: nat, fetched: seq<seq<BlockResult>>, cancelFrom: Option<nat>,
    rows: seq<Row>, cursors: seq<nat>, progress: seq<nat>)
    requires FetchState(start, end, fetched, cancelFrom, rows, cursors, progress)
    requires NothingMissed(start, end, fetched, cancelFrom)
    requires |cursors| == |Partition(start, end)|
    ensures |rows| == if end < start then 0 else end - start + 1
  {
    BatchesPartition(start, end);
  }

  /** `parallelFetcher(ctx, analyzer, start, end, filePath)`.

      `createError` is the outcome of `os.Create`, `fetched[k]` the results
      batch `k` gathered, and `cancelFrom` the first block whose pre-launch
      check sees the context cancelled. */
  method ParallelFetcher(
    start: nat, end: nat, createError: Option<string>,
    fetched: seq<seq<BlockResult>>, cancelFrom: Option<nat>)
    returns (run: Run)
    requires end < Uint64Modulus
    requires FetchedWithin(fetched, Partition(start, end))
    // Only a failure to create the file is returned as an error; a cancelled run returns nil.
    ensures run.err == createError
    ensures createError.Some? ==> run.csv == [] && run.rows == [] && run.cursors == []
    ensures createError.None? ==> run.csv == Csv(run.rows)
    // The rows written are exactly blocks start, start + 1, ..., each carrying the data fetched for it.
    ensures GaplessRows(start, fetched, run.rows)
    // Progress is reported once per finished batch, never moves backwards, and ends at the last row.
    ensures |run.progress| == |run.cursors|
    ensures CursorsWithinBatches(start, Partition(start, end), run.cursors)
    ensures forall k :: 0 <= k < |run.cursors| ==> run.progress[k] == LastWrittenValue(run.cursors[k])
    ensures run.cursors == [] ==> run.rows == []
    ensures run.cursors != [] ==> run.cursors[|run.cursors| - 1] == start + |run.rows|
    // Each walk passes exactly over the consecutive blocks fetched from the cursor on.
    ensures WalksMaximal(start, fetched, run.cursors)
    ensures CompleteBatchesWritten(start, fetched, Partition(start, end), run.cursors)
    ensures GapsPersist(Partition(start, end), run.cursors)
    // The loop stops exactly at the first batch whose checks see the cancellation.
    ensures forall k :: 0 <= k < |run.cursors| ==> !CancelledIn(cancelFrom, Partition(start, end)[k])
    ensures createError.None? && |run.cursors| < |Partition(start, end)| ==>
              CancelledIn(cancelFrom, Partition(start, end)[|run.cursors|])
    // Without cancellation, a range whose every block was fetched is written completely.
    ensures createError.None? && NothingMissed(start, end, fetched, cancelFrom) ==>
              |run.rows| == if end < start then 0 else end - start + 1
  {
    if createError.Some? {
      return Run(createError, [], [], [], []);
    }
    var batches := Partition(start, end);
    var csv: seq<seq<string>> := [Header];
    var rows: seq<Row> := [];
    var cursors: seq<nat> := [];
    var progress: seq<nat> := [];
    var lastWritten := start;
    var k := 0;
    FetchStateInit(start, end, fetched, cancelFrom);
    while k < |batches|
      invariant k <= |batches| && |cursors| == k
      invariant csv == Csv(rows)
      invariant lastWritten == start + |rows|
      invariant FetchState(start, end, fetched, cancelFrom, rows, cursors, progress)
    {
      // Every block of the batch is checked for cancellation before its fetch is launched.
      if CancelledIn(cancelFrom, batches[k]) {
        return Run(None, csv, rows, cursors, progress);
      }
      var step := BatchStep(fetched[k], lastWritten);
      var batchRows, next := step.0, step.1;
      FetchStateStep(start, end, fetched, cancelFrom, rows, cursors, progress, batchRows, next);
      CsvAppend(rows, batchRows);
      csv := csv + Lines(batchRows);
      rows := rows + batchRows;
      lastWritten := next;
      cursors := cursors + [lastWritten];
      progress := progress + [LastWrittenValue(lastWritten)];
      k := k + 1;
    }
    if NothingMissed(start, end, fetched, cancelFrom) {
      NothingMissedWritesAll(start, end, fetched, cancelFrom, rows, cursors, progress);
    }
    return Run(None, csv, rows, cursors, progress);
  }
}

=== FILE: hex.dfy ===
/** Hexadecimal text as the analyzer reads and writes it: `hexToBig` with
    its helper `padOdd`, the `"0x%x"` encoding used for cached tips, and
    `strconv.ParseInt(_, 16, 64)` used for block timestamps
    (analyzer.go:178-211). */
module Hex {
  import opened Results
  import opened Numerals

  /** An octet, as produced by `hex.DecodeString`. */
  type byte = x: nat | x < 256

  /** The prefix Ethereum JSON-RPC puts in front of every quantity. */
  const HexPrefix: string := "0x"

  /** Go's `strings.TrimPrefix`: removes one leading copy of `prefix`, if present. */
  function TrimPrefix(s: string, prefix: string): (r: string)
    ensures prefix <= s ==> s == prefix + r
    ensures !(prefix <= s) ==> r == s
  {
    if prefix <= s then s[|prefix|..] else s
  }

  /** The digits `hexToBig` decodes: its argument with one "0x" removed. */
  function StripHex(h: string): string
  {
    TrimPrefix(h, HexPrefix)
  }

  /** `padOdd`: makes the length even by prepending a single '0' to an
      odd-length string and leaves an even-length string alone. */
  function PadOdd(s: string): (r: string)
    ensures |r| % 2 == 0
    ensures |s| % 2 == 1 ==> r == "0" + s
    ensures |s| % 2 == 0 ==> r == s
  {
    if |s| % 2 == 1 then "0" + s else s
  }

  /** Padding neither admits nor rejects any digit string and keeps its value. */
  lemma PadOddPreservesValue(s: string)
    ensures AllDigits(PadOdd(s), 16) <==> AllDigits(s, 16)
    ensures AllDigits(s, 16) ==> Value(PadOdd(s), 16) == Value(s, 16)
  {
    if |s| % 2 == 1 {
      var p := PadOdd(s);
      assert forall i :: 0 <= i < |s| ==> p[i + 1] == s[i];
      if AllDigits(s, 16) {
        LeadingZeroValue(s, 16);
      }
    }
  }

  /** Go's `hex.DecodeString`: each pair of hexadecimal digits, in either
      case, becomes one byte, high digit first; an odd length or any
      non-digit character is an error (None). */
  function DecodeHexString(s: string): (r: Option<seq<byte>>)
    ensures r.Some? <==> |s| % 2 == 0 && AllDigits(s, 16)
    ensures r.Some? ==> |r.value| * 2 == |s|
    ensures r.Some? ==> forall i :: 0 <= i < |r.value| ==>
              r.value[i] == 16 * DigitValue(s[2 * i]).value + DigitValue(s[2 * i + 1]).value
    decreases |s|
  {
    if |s| == 0 then Some([])
    else if |s| == 1 then None
    else
      var hi, lo := DigitValue(s[|s| - 2]), DigitValue(s[|s| - 1]);
      assert s[..|s| - 2] + [s[|s| - 2], s[|s| - 1]] == s;
      match DecodeHexString(s[..|s| - 2])
      case None => None
      case Some(prefix) =>
        if hi.Some? && lo.Some? then Some(prefix + [16 * hi.value + lo.value]) else None
  }

  /** The bytes `hex.DecodeString` produces have, read big-endian as
      `big.Int.SetBytes` does, the value of the hexadecimal digits. */
  lemma {:induction false} DecodedBytesValue(s: string)
    requires |s| % 2 == 0 && AllDigits(s, 16)
    ensures FromDigits(DecodeHexString(s).value, 256) == Value(s, 16)
    decreases |s|
  {
    if |s| > 0 {
      var p := s[..|s| - 2];
      var b := DecodeHexString(s).value;
      var bp := DecodeHexString(p).value;
      assert b[..|b| - 1] == bp;
      DecodedBytesValue(p);
      ValueSnoc(s, 16);
      ValueSnoc(s[..|s| - 1], 16);
      assert s[..|s| - 1][..|s| - 2] == p;
    }
  }

  /** `hexToBig`: removes one leading "0x", reads nothing as zero, and
      otherwise decodes the padded digits as a big-endian byte string;
      a string that does not decode panics with the trimmed text. */
  function HexToBig(h: string): (r: Result<nat>)
    ensures r.Ok? <==> AllDigits(StripHex(h), 16)
    ensures r.Ok? ==> r.value == Value(StripHex(h), 16)
    ensures r.Panic? ==> r.reason == "invalid hex string: " + StripHex(h)
  {
    var t := StripHex(h);
    if t == "" then Ok(0)
    else
      PadOddPreservesValue(t);
      match DecodeHexString(PadOdd(t))
      case None => Panic("invalid hex string: " + t)
      case Some(b) =>
        DecodedBytesValue(PadOdd(t));
        Ok(FromDigits(b, 256))
  }

  /** Only one "0x" is removed: a doubled prefix always panics. */
  lemma DoublePrefixPanics(t: string)
    ensures HexToBig("0x0x" + t).Panic?
  {
    assert StripHex("0x0x" + t) == "0x" + t;
    assert !IsDigit(("0x" + t)[1], 16);
  }

  /** The `fmt.Sprintf("0x%x", n)` encoding of a non-negative big integer. */
  function HexEncode(n: nat): (s: string)
    ensures HexPrefix <= s && Canonical(s[2..], 16)
  {
    FormatIsCanonical(n, 16);
    HexPrefix + Format(n, 16)
  }

  /** Decoding an encoded quantity gives it back, zero ("0x0") included. */
  lemma HexRoundTrip(n: nat)
    ensures HexToBig(HexEncode(n)) == Ok(n)
  {
    var s := HexEncode(n);
    assert StripHex(s) == Format(n, 16);
    FormatRoundTrip(n, 16);
  }

  /** Conversely, every canonical "0x" quantity is the encoding of what
      `HexToBig` reads from it. */
  lemma HexEncodeOfDecoded(h: string)
    requires HexPrefix <= h && Canonical(h[2..], 16)
    ensures HexToBig(h).Ok? && HexEncode(HexToBig(h).value) == h
  {
    assert StripHex(h) == h[2..];
    FormatCanonical(h[2..], 16);
  }

  const Int64Min: int := -0x8000_0000_0000_0000
  const Int64Max: int := 0x7fff_ffff_ffff_ffff

  /** The reasons `strconv.ParseInt` gives for rejecting its input. */
  const ErrSyntax: string := "invalid syntax"
  const ErrRange: string := "value out of range"

  /** A magnitude `u`, negated when `neg`, is a signed 64-bit value. */
  predicate FitsInt64(neg: bool, u: nat)
  {
    if neg then u <= -Int64Min else u <= Int64Max
  }

  /** Splits off the optional sign `strconv.ParseInt` accepts: a leading
      '-' makes the value negative, a leading '+' is dropped, and anything
      else is left to the digit reader. */
  function SplitSign(s: string): (r: (bool, string))
    ensures r.0 <==> |s| > 0 && s[0] == '-'
    ensures |s| > 0 && (s[0] == '+' || s[0] == '-') ==> s == [s[0]] + r.1
    ensures !(|s| > 0 && (s[0] == '+' || s[0] == '-')) ==> r.1 == s
  {
    if |s| > 0 && s[0] == '+' then (false, s[1..])
    else if |s| > 0 && s[0] == '-' then (true, s[1..])
    else (false, s)
  }

  /** The digit loop of `strconv.ParseUint(_, 16, 64)`, reading left to
      right from `n`, the value of the digits read so far: a non-digit is
      a syntax error, and a digit that takes the value past 2^64 - 1 is a
      range error at once, before anything after it is looked at. */
  function ScanHex(s: string, n: nat): (r: Result<nat>)
    requires n < Uint64Modulus
    ensures r.Ok? ==> n <= r.value < Uint64Modulus
    ensures r.Panic? ==> r.reason == ErrSyntax || r.reason == ErrRange
    decreases |s|
  {
    if |s| == 0 then Ok(n)
    else if !IsDigit(s[0], 16) then Panic(ErrSyntax)
    else
      var next := n * 16 + DigitValue(s[0]).value;
      if next >= Uint64Modulus then Panic(ErrRange) else ScanHex(s[1..], next)
  }

  /** The reason a parse of `digits` fails, as the left-to-right reader
      decides it: a range error when the leading run of digits is worth
      2^64 or more, or when the text is all digits (then only the range
      check can have failed); a syntax error otherwise. */
  function ParseFailure(digits: string): string
  {
    if Value(LeadingDigits(digits, 16), 16) >= Uint64Modulus || (|digits| > 0 && AllDigits(digits, 16))
    then ErrRange else ErrSyntax
  }

  /** How a scan ends once its digits are worth `v`: a range error if
      `v` does not fit 64 bits, otherwise a syntax error if a character
      is left over, otherwise `v`. */
  function ScanEnd(v: nat, leftover: bool): Result<nat>
  {
    if v >= Uint64Modulus then Panic(ErrRange)
    else if leftover then Panic(ErrSyntax)
    else Ok(v)
  }

  /** What the scan computes, after the digits `read`: the leading run of
      digits of `rest` is a range error if `read` and the run together
      overflow, otherwise a syntax error if any character is left over,
      and otherwise their value. */
  lemma {:induction false} ScanHexReads(read: string, rest: string)
    requires AllDigits(read, 16) && Value(read, 16) < Uint64Modulus
    ensures AllDigits(read + LeadingDigits(rest, 16), 16)
    ensures ScanHex(rest, Value(read, 16))
            == ScanEnd(Value(read + LeadingDigits(rest, 16), 16), |LeadingDigits(rest, 16)| < |rest|)
    decreases |rest|
  {
    var run := LeadingDigits(rest, 16);
    AllDigitsAppend(read, run, 16);
    if |rest| == 0 || !IsDigit(rest[0], 16) {
      assert read + run == read;
    } else {
      var read', run' := read + [rest[0]], LeadingDigits(rest[1..], 16);
      ValueAppendDigit(read, rest[0], 16);
      ScanHexDigit(Value(read, 16), Value(read', 16), rest);
      JoinRun(read, rest, read', run');
      ValueAppendGrows(read', run', 16);
      if Value(read', 16) < Uint64Modulus {
        ScanHexReads(read', rest[1..]);
      }
    }
  }

  /** Moving the first digit of the rest over to the digits read keeps
      the whole run. */
  lemma JoinRun(read: string, rest: string, read': string, run': string)
    requires |rest| > 0 && IsDigit(rest[0], 16)
    requires read' == read + [rest[0]] && run' == LeadingDigits(rest[1..], 16)
    ensures read + LeadingDigits(rest, 16) == read' + run'
  {
    assert LeadingDigits(rest, 16) == [rest[0]] + run';
  }

  /** The scan reads one digit: `m` is `n` times 16 plus the digit, and
      the scan stops with a range error if `m` leaves the `uint64` range. */
  lemma ScanHexDigit(n: nat, m: nat, s: string)
    requires n < Uint64Modulus && |s| > 0 && IsDigit(s[0], 16)
    requires m == n * 16 + DigitValue(s[0]).value
    ensures ScanHex(s, n) == if m >= Uint64Modulus then Panic(ErrRange) else ScanHex(s[1..], m)
  {
  }

  /** `strconv.ParseUint(s, 16, 64)`: at least one hexadecimal digit and
      nothing else, worth less than 2^64. */
  function ParseUint64Hex(s: string): (r: Result<nat>)
    ensures r.Ok? <==> |s| > 0 && AllDigits(s, 16) && Value(s, 16) < Uint64Modulus
    ensures r.Ok? ==> r.value == Value(s, 16)
    ensures r.Panic? ==> r.reason == ParseFailure(s)
  {
    if |s| == 0 then Panic(ErrSyntax)
    else
      ScanFromStart(s);
      LeadingDigitsOfDigits(s, 16);
      ScanHex(s, 0)
  }

  /** The scan from nothing read ends as the leading run of digits decides. */
  lemma ScanFromStart(s: string)
    ensures AllDigits(LeadingDigits(s, 16), 16)
    ensures ScanHex(s, 0) == ScanEnd(Value(LeadingDigits(s, 16), 16), |LeadingDigits(s, 16)| < |s|)
  {
    assert Digits("", 16) == [];
    ScanHexReads("", s);
    assert "" + LeadingDigits(s, 16) == LeadingDigits(s, 16);
  }

  /** `strconv.ParseInt(s, 16, 64)`: an optional sign, then at least one
      hexadecimal digit (no prefix, no underscores) whose signed value
      fits 64 bits. */
  function ParseInt64Hex(s: string): (r: Result<int>)
    ensures var neg, digits := SplitSign(s).0, SplitSign(s).1;
      r.Ok? <==> |digits| > 0 && AllDigits(digits, 16) && FitsInt64(neg, Value(digits, 16))
    ensures var neg, digits := SplitSign(s).0, SplitSign(s).1;
      r.Ok? ==> Int64Min <= r.value <= Int64Max && r.value == if neg then -(Value(digits, 16) as int) else Value(digits, 16)
    ensures r.Panic? ==> r.reason == ParseFailure(SplitSign(s).1)
  {
    var (neg, digits) := SplitSign(s);
    ParseMagnitude(neg, digits)
  }

  /** The digits after the sign: the unsigned parse, then the check that
      the signed value fits 64 bits. */
  function ParseMagnitude(neg: bool, digits: string): (r: Result<int>)
    ensures r.Ok? <==> |digits| > 0 && AllDigits(digits, 16) && FitsInt64(neg, Value(digits, 16))
    ensures r.Ok? ==>
      && Int64Min <= r.value <= Int64Max
      && r.value == (if neg then -(Value(digits, 16) as int) else Value(digits, 16))
    ensures r.Panic? ==> r.reason == ParseFailure(digits)
  {
    match ParseUint64Hex(digits)
    case Panic(reason) => Panic(reason)
    case Ok(u) =>
      var v: int := u;
      if FitsInt64(neg, u) then Ok(if neg then -v else v) else Panic(ErrRange)
  }

  /** Digits are read before what follows them is looked at: digits worth
      2^64 or more are a range error whatever characters come after. */
  lemma OverflowBeforeBadCharacter(neg: bool, f: string, t: string)
    requires AllDigits(f, 16) && Value(f, 16) >= Uint64Modulus
    ensures ParseMagnitude(neg, f + t) == Panic(ErrRange)
  {
    var run := LeadingDigits(t, 16);
    LeadingDigitsAppend(f, t, 16);
    ValueAppendGrows(f, run, 16);
    assert Value(LeadingDigits(f + t, 16), 16) >= Uint64Modulus;
    if AllDigits(f + t, 16) {
      LeadingDigitsOfDigits(f + t, 16);
      assert !FitsInt64(neg, Value(f + t, 16));
    }
    assert ParseFailure(f + t) == ErrRange;
  }

  /** `strconv.FormatInt(v, 16)`: a '-' for negatives, then the digits of |v|. */
  function FormatInt64Hex(v: int): string
  {
    if v < 0 then "-" + Format(-v, 16) else Format(v, 16)
  }

  /** Every signed 64-bit value survives formatting and parsing. */
  lemma ParseFormatInt64(v: int)
    requires Int64Min <= v <= Int64Max
    ensures ParseInt64Hex(FormatInt64Hex(v)) == Ok(v)
  {
    if v < 0 {
      ParseFormatNegative(v);
    } else {
      ParseFormatNonNegative(v);
    }
  }

  /** The negative half of `ParseFormatInt64`. */
  lemma ParseFormatNegative(v: int)
    requires Int64Min <= v < 0
    ensures ParseInt64Hex(FormatInt64Hex(v)) == Ok(v)
  {
    var u: nat := -v;
    FormatRoundTrip(u, 16);
    SignedDigitsParse(true, Format(u, 16), u);
  }

  /** The non-negative half of `ParseFormatInt64`. */
  lemma ParseFormatNonNegative(v: int)
    requires 0 <= v <= Int64Max
    ensures ParseInt64Hex(FormatInt64Hex(v)) == Ok(v)
  {
    FormatRoundTrip(v, 16);
    SignedDigitsParse(false, Format(v, 16), v);
  }

  /** A sign, if any, and digits worth `u` that fit parse to the signed value. */
  lemma SignedDigitsParse(neg: bool, f: string, u: nat)
    requires |f| > 0 && AllDigits(f, 16) && Value(f, 16) == u && FitsInt64(neg, u)
    ensures ParseInt64Hex(if neg then "-" + f else f) == Ok(if neg then -(u as int) else u as int)
  {
    ParseSignedDigits(neg, f);
    MagnitudeInRange(neg, f, u);
  }

  /** Digits whose value fits the signed range parse to that value, negated under a '-'. */
  lemma MagnitudeInRange(neg: bool, f: string, u: nat)
    requires |f| > 0 && AllDigits(f, 16) && Value(f, 16) == u
    requires FitsInt64(neg, u)
    ensures ParseMagnitude(neg, f) == Ok(if neg then -(u as int) else u as int)
  {
  }

  /** A sign, if any, followed by digits splits into that sign and those digits. */
  lemma ParseSignedDigits(neg: bool, f: string)
    requires |f| > 0 && AllDigits(f, 16)
    ensures ParseInt64Hex(if neg then "-" + f else f) == ParseMagnitude(neg, f)
  {
    var s := if neg then "-" + f else f;
    if neg {
      assert s[0] == '-' && s[1..] == f;
    } else {
      assert IsDigit(f[0], 16);
      assert s[0] != '+' && s[0] != '-';
    }
    assert SplitSign(s) == (neg, f);
  }
}

=== FILE: jobs.dfy ===
/** The job table and the status transitions of the HTTP handlers
    (main.go:136-211): submission, stop, the progress update made after
    every batch (main.go:121-125), completion of the fetch, and download.

    Every handler runs under `jobsMu`, so each is one atomic step on the
    table; the table is a map from job id to job record. */
module Jobs {
  import opened Results
  import opened Numerals
  import Fetcher

  /** The status strings a job can carry (main.go:31). Only `Pending`,
      `Done` and `Error` are ever assigned. */
  datatype Status = Pending | Running | Done | Stopped | Error

  /** `JobStatus` (main.go:30-40). `cancelled` records whether the job's
      cancel function has been called, which is what `ctx.Err() ==
      context.Canceled` observes. */
  datatype Job = Job(
    status: Status,
    filePath: string,
    error: string,
    start: nat,
    end: nat,
    lastWritten: nat,
    cancelled: bool)

  type JobTable = map<string, Job>

  /** What a handler answers. */
  datatype Reply =
    | Accepted(jobId: string)
    | Stopping
    | Serve(path: string, name: string)
    | HttpError(code: nat, message: string)

  /** The directory every job writes into (main.go:153). */
  const JobDir: string := "/var/eth-fetcher/jobs/"

  /** `eth_blocks_<start>_<end>_<id>.csv`, the numbers in decimal. */
  function JobFileName(start: nat, end: nat, id: string): string
  {
    "eth_blocks_" + (Format(start, 10) + ("_" + (Format(end, 10) + ("_" + (id + ".csv")))))
  }

  /** The output path of a job (main.go:153). */
  function JobFilePath(start: nat, end: nat, id: string): (p: string)
    ensures |p| > |JobDir| && p[..|JobDir|] == JobDir
  {
    JobDir + JobFileName(start, end, id)
  }

  /** A decimal numeral never contains the `_` separator. */
  lemma NoSeparatorInDecimal(n: nat)
    ensures '_' !in Format(n, 10)
  {
  }

  /** Cutting a string at the first occurrence of `sep` is unambiguous. */
  lemma SplitAtSeparator(a: string, r: string, a2: string, r2: string, sep: char)
    requires sep !in a && sep !in a2
    requires a + [sep] + r == a2 + [sep] + r2
    ensures a == a2 && r == r2
  {
    var s := a + [sep] + r;
    assert |a| == |a2| by {
      if |a| < |a2| {
        ElementAt(a2, sep, r2, |a|);
        SeparatorAt(a, sep, r);
        assert false;
      } else if |a2| < |a| {
        ElementAt(a, sep, r, |a2|);
        SeparatorAt(a2, sep, r2);
        assert false;
      }
    }
    assert a == s[..|a|] && a2 == s[..|a2|];
    assert r == s[|a| + 1..] && r2 == s[|a2| + 1..];
  }

  /** Before the separator lie the elements of the first part. */
  lemma ElementAt(a: string, sep: char, r: string, i: nat)
    requires i < |a|
    ensures (a + [sep] + r)[i] == a[i] && a[i] in a
  {
  }

  /** The separator sits right after the first part. */
  lemma SeparatorAt(a: string, sep: char, r: string)
    ensures (a + [sep] + r)[|a|] == sep
  {
  }

  /** Equal strings with a common prefix agree after it. */
  lemma DropPrefix(p: string, s: string, s2: string)
    requires p + s == p + s2
    ensures s == s2
  {
    assert s == (p + s)[|p|..] && s2 == (p + s2)[|p|..];
  }

  /** Equal strings with a common suffix agree before it. */
  lemma DropSuffix(s: string, s2: string, q: string)
    requires s + q == s2 + q
    ensures s == s2
  {
    assert s == (s + q)[..|s|] && s2 == (s2 + q)[..|s2|];
  }

  /** Two jobs write the same file only if they have the same range and
      the same id: distinct job ids never share an output file. */
  lemma JobFilePathInjective(start: nat, end: nat, id: string, start2: nat, end2: nat, id2: string)
    requires JobFilePath(start, end, id) == JobFilePath(start2, end2, id2)
    ensures start == start2 && end == end2 && id == id2
  {
    var a, b, a2, b2 := Format(start, 10), Format(end, 10), Format(start2, 10), Format(end2, 10);
    var tail, tail2 := b + ("_" + (id + ".csv")), b2 + ("_" + (id2 + ".csv"));
    DropPrefix(JobDir, JobFileName(start, end, id), JobFileName(start2, end2, id2));
    DropPrefix("eth_blocks_", a + ("_" + tail), a2 + ("_" + tail2));
    NoSeparatorInDecimal(start);
    NoSeparatorInDecimal(end);
    NoSeparatorInDecimal(start2);
    NoSeparatorInDecimal(end2);
    assert a + ("_" + tail) == a + ['_'] + tail;
    assert a2 + ("_" + tail2) == a2 + ['_'] + tail2;
    SplitAtSeparator(a, tail, a2, tail2, '_');
    assert b + ("_" + (id + ".csv")) == b + ['_'] + (id + ".csv");
    assert b2 + ("_" + (id2 + ".csv")) == b2 + ['_'] + (id2 + ".csv");
    SplitAtSeparator(b, id + ".csv", b2, id2 + ".csv", '_');
    DropSuffix(id, id2, ".csv");
    FormatRoundTrip(start, 10);
    FormatRoundTrip(start2, 10);
    FormatRoundTrip(end, 10);
    FormatRoundTrip(end2, 10);
  }

  /** The `/request` handler once the query has been parsed (main.go:144-161):
      an end below the start is refused with 400, otherwise job `id`
      (a fresh UUID in the source) is entered as `pending`. */
  function Submit(table: JobTable, id: string, start: nat, end: nat): (r: (JobTable, Reply))
    ensures r.1.HttpError? <==> end < start
    ensures end < start ==> r.0 == table && r.1 == HttpError(400, "Invalid end block")
    ensures start <= end ==>
              && r.1 == Accepted(id)
              && r.0.Keys == table.Keys + {id}
              && r.0[id].status == Pending && !r.0[id].cancelled
              && r.0[id].filePath == "" && r.0[id].error == ""
              && r.0[id].start == start && r.0[id].end == end && r.0[id].lastWritten == 0
              && (forall other :: other in table && other != id ==> r.0[other] == table[other])
  {
    if end < start then (table, HttpError(400, "Invalid end block"))
    else (table[id := Job(Pending, "", "", start, end, 0, false)], Accepted(id))
  }

  /** The `/stop/` handler (main.go:182-196): an unknown id is 404; a
      `pending` job has its context cancelled; any other job is left
      alone but still answered with 200. The status itself never changes. */
  function Stop(table: JobTable, id: string): (r: (JobTable, Reply))
    ensures r.0.Keys == table.Keys
    ensures r.1 == if id in table then Stopping else HttpError(404, "Job not found")
    ensures forall other :: other in table ==>
              r.0[other] == table[other].(cancelled := table[other].cancelled || (other == id && table[other].status == Pending))
  {
    if id !in table then (table, HttpError(404, "Job not found"))
    else if table[id].status == Pending then (table[id := table[id].(cancelled := true)], Stopping)
    else (table, Stopping)
  }

  /** The update after every batch (main.go:121-125): if the job is still
      in the table its `LastWritten` becomes the cursor minus one, in
      `uint64` arithmetic; nothing else changes. */
  function RecordProgress(table: JobTable, id: string, cursor: nat): (r: JobTable)
    ensures r.Keys == table.Keys
    ensures id in table ==> r[id] == table[id].(lastWritten := Fetcher.LastWrittenValue(cursor))
    ensures forall other :: other in table && other != id ==> r[other] == table[other]
  {
    if id in table then table[id := table[id].(lastWritten := Fetcher.LastWrittenValue(cursor))]
    else table
  }

  /** The goroutine that runs the fetch, on its return (main.go:164-175):
      `err` is what `parallelFetcher` returned. The job becomes `error`
      with the message when there was an error and the job was not
      cancelled, and `done` with its output path otherwise — a cancelled
      run included. The goroutine dereferences `jobs[jobID]` without a
      check, so an absent job is a nil-pointer panic. */
  function Complete(table: JobTable, id: string, err: Option<string>): (r: Result<JobTable>)
    ensures r.Ok? <==> id in table
    ensures r.Ok? ==>
              && r.value.Keys == table.Keys
              && (r.value[id].status == Error <==> err.Some? && !table[id].cancelled)
              && (r.value[id].status == Error ==> r.value[id].error == err.value && r.value[id].filePath == table[id].filePath)
              && (r.value[id].status != Error ==>
                    r.value[id].status == Done && r.value[id].error == table[id].error
                    && r.value[id].filePath == JobFilePath(table[id].start, table[id].end, id))
              && r.value[id].start == table[id].start && r.value[id].end == table[id].end
              && r.value[id].lastWritten == table[id].lastWritten
              && r.value[id].cancelled == table[id].cancelled
              && (forall other :: other in table && other != id ==> r.value[other] == table[other])
  {
    if id !in table then Panic("invalid memory address or nil pointer dereference")
    else
      var job := table[id];
      if err.Some? && !job.cancelled then Ok(table[id := job.(status := Error, error := err.value)])
      else Ok(table[id := job.(status := Done, filePath := JobFilePath(job.start, job.end, id))])
  }

  /** The name offered in `Content-Disposition`: the output path without
      its directory. */
  function DownloadName(path: string): (name: string)
    ensures JobDir <= path ==> path == JobDir + name
    ensures !(JobDir <= path) ==> name == path
  {
    if JobDir <= path then path[|JobDir|..] else path
  }

  /** The name the handler computes as written (main.go:209): the path
      minus its first `len("jobs/")` characters; a shorter path panics. */
  function AsWrittenDownloadName(path: string): (r: Result<string>)
    ensures r.Ok? <==> |path| >= 5
    ensures r.Ok? ==> path == path[..5] + r.value
  {
    if |path| < 5 then Panic("slice bounds out of range") else Ok(path[5..])
  }

  /** For every job the as-written name still carries the directories
      `eth-fetcher/jobs/`, so it differs from the file's own name. */
  lemma AsWrittenNameKeepsDirectories(start: nat, end: nat, id: string)
    ensures AsWrittenDownloadName(JobFilePath(start, end, id)) == Ok("eth-fetcher/jobs/" + JobFileName(start, end, id))
    ensures AsWrittenDownloadName(JobFilePath(start, end, id)) != Ok(JobFileName(start, end, id))
  {
    var p := JobFilePath(start, end, id);
    assert p[5..] == "eth-fetcher/jobs/" + JobFileName(start, end, id);
  }

  /** The corrected name of a job's file is exactly `eth_blocks_<start>_<end>_<id>.csv`. */
  lemma DownloadNameOfJob(start: nat, end: nat, id: string)
    ensures DownloadName(JobFilePath(start, end, id)) == JobFileName(start, end, id)
  {
    var p := JobFilePath(start, end, id);
    assert p[|JobDir|..] == JobFileName(start, end, id);
  }

  /** The `/download/` handler (main.go:199-211): the file is served only
      for a known job that is `done` or `stopped` and has an output path. */
  function Download(table: JobTable, id: string): (r: Reply)
    ensures r.Serve? <==>
              id in table && (table[id].status == Done || table[id].status == Stopped) && table[id].filePath != ""
    ensures !r.Serve? ==> r == HttpError(404, "File not ready or job not found")
    ensures r.Serve? ==> r.path == table[id].filePath && r.name == DownloadName(r.path)
  {
    if id !in table || (table[id].status != Done && table[id].status != Stopped) || table[id].filePath == ""
    then HttpError(404, "File not ready or job not found")
    else Serve(table[id].filePath, DownloadName(table[id].filePath))
  }

  /** The events that change the table. */
  datatype Event =
    | SubmitEvent(id: string, start: nat, end: nat)
    | StopEvent(id: string)
    | ProgressEvent(id: string, cursor: nat)
    | CompleteEvent(id: string, err: Option<string>)

  /** The table after one event; a panicking completion leaves it as it was. */
  function Apply(table: JobTable, e: Event): JobTable
  {
    match e
    case SubmitEvent(id, start, end) => Submit(table, id, start, end).0
    case StopEvent(id) => Stop(table, id).0
    case ProgressEvent(id, cursor) => RecordProgress(table, id, cursor)
    case CompleteEvent(id, err) =>
      var r := Complete(table, id, err);
      if r.Ok? then r.value else table
  }

  /** The table after a sequence of events. */
  function ApplyAll(table: JobTable, es: seq<Event>): JobTable
    decreases |es|
  {
    if es == [] then table else ApplyAll(Apply(table, es[0]), es[1..])
  }

  /** What every reachable table satisfies: no job is ever `running` or
      `stopped`, a pending job has no output path yet, a finished job has
      its own output path, and the recorded range is never inverted. */
  predicate WellFormed(table: JobTable)
  {
    forall id :: id in table ==>
      && table[id].status != Running && table[id].status != Stopped
      && table[id].start <= table[id].end
      && (table[id].status == Pending ==> table[id].filePath == "")
      && (table[id].status == Done ==> table[id].filePath == JobFilePath(table[id].start, table[id].end, id))
  }

  /** Every event keeps the table well formed. */
  lemma ApplyKeepsWellFormed(table: JobTable, e: Event)
    requires WellFormed(table)
    ensures WellFormed(Apply(table, e))
  {
    match e
    case SubmitEvent(id, start, end) => SubmitKeepsWellFormed(table, id, start, end);
    case StopEvent(id) => StopKeepsWellFormed(table, id);
    case ProgressEvent(id, cursor) => ProgressKeepsWellFormed(table, id, cursor);
    case CompleteEvent(id, err) => CompleteKeepsWellFormed(table, id, err);
  }

  lemma SubmitKeepsWellFormed(table: JobTable, id: string, start: nat, end: nat)
    requires WellFormed(table)
    ensures WellFormed(Submit(table, id, start, end).0)
  {
  }

  lemma StopKeepsWellFormed(table: JobTable, id: string)
    requires WellFormed(table)
    ensures WellFormed(Stop(table, id).0)
  {
  }

  lemma ProgressKeepsWellFormed(table: JobTable, id: string, cursor: nat)
    requires WellFormed(table)
    ensures WellFormed(RecordProgress(table, id, cursor))
  {
  }

  lemma CompleteKeepsWellFormed(table: JobTable, id: string, err: Option<string>)
    requires WellFormed(table)
    ensures Complete(table, id, err).Ok? ==> WellFormed(Complete(table, id, err).value)
  {
  }

  /** From the empty table, no sequence of events ever produces a
      `running` or `stopped` job, and every `done` job can be downloaded
      from its own output path. */
  lemma {:induction false} ReachableWellFormed(table: JobTable, es: seq<Event>)
    requires WellFormed(table)
    ensures WellFormed(ApplyAll(table, es))
    ensures forall id :: id in ApplyAll(table, es) && ApplyAll(table, es)[id].status == Done ==>
              Download(ApplyAll(table, es), id) == Serve(JobFilePath(ApplyAll(table, es)[id].start, ApplyAll(table, es)[id].end, id),
                                                          JobFileName(ApplyAll(table, es)[id].start, ApplyAll(table, es)[id].end, id))
    decreases |es|
  {
    if es != [] {
      ApplyKeepsWellFormed(table, es[0]);
      ReachableWellFormed(Apply(table, es[0]), es[1..]);
    }
    var t := ApplyAll(table, es);
    forall id | id in t && t[id].status == Done
      ensures Download(t, id) == Serve(JobFilePath(t[id].start, t[id].end, id), JobFileName(t[id].start, t[id].end, id))
    {
      DownloadNameOfJob(t[id].start, t[id].end, id);
    }
  }

  /** A job stopped while pending ends `done`, not `stopped`, whatever the
      fetch returned, and its partial file can then be downloaded. */
  lemma StoppedJobEndsDone(table: JobTable, id: string, start: nat, end: nat, err: Option<string>)
    requires start <= end
    ensures var t1 := Submit(table, id, start, end).0;
            var t2 := Stop(t1, id).0;
            && Complete(t2, id, err).Ok?
            && Complete(t2, id, err).value[id].status == Done
            && Download(Complete(t2, id, err).value, id).Serve?
  {
  }

  /** Without a stop, a fetch that returned an error leaves the job in
      `error`, and nothing can be downloaded for it. */
  lemma FailedJobNotDownloadable(table: JobTable, id: string, start: nat, end: nat, msg: string)
    requires start <= end
    ensures var t1 := Submit(table, id, start, end).0;
            && Complete(t1, id, Some(msg)).Ok?
            && Complete(t1, id, Some(msg)).value[id].status == Error
            && Complete(t1, id, Some(msg)).value[id].error == msg
            && Download(Complete(t1, id, Some(msg)).value, id) == HttpError(404, "File not ready or job not found")
  {
  }

  /** Before the fetch returns, a job cannot be downloaded, whatever
      progress it has reported. */
  lemma PendingJobNotDownloadable(table: JobTable, id: string, start: nat, end: nat, cursor: nat)
    requires start <= end
    ensures var t := RecordProgress(Submit(table, id, start, end).0, id, cursor);
            && t[id].status == Pending
            && t[id].lastWritten == Fetcher.LastWrittenValue(cursor)
            && Download(t, id) == HttpError(404, "File not ready or job not found")
  {
  }
}

=== FILE: numerals.dfy ===
/** Positional numerals: the big-endian value of a digit sequence and the
    canonical rendering of a natural number in a base up to 16.

    Go's `fmt` verbs `%d` and `%x`, `big.Int.String()`, `hex.DecodeString`,
    `big.Int.SetBytes` and `strconv.ParseInt` all reduce to these two
    concepts, so they are defined once here. */
module Numerals {
  import opened Results

  /** 2^64: block numbers, cursors and `strconv` results are `uint64`,
      whose values lie below it and whose arithmetic wraps modulo it. */
  const Uint64Modulus: nat := 0x1_0000_0000_0000_0000

  /** Lower-case digit characters, as written by `%x` and `%d`. */
  const Alphabet: string := "0123456789abcdef"

  /** The value of one hexadecimal digit character, accepting either case
      (the digit set of Go's `encoding/hex` and `strconv`). */
  function DigitValue(c: char): (r: Option<nat>)
    ensures r.Some? ==> r.value < 16
    ensures r.Some? <==> ('0' <= c <= '9' || 'a' <= c <= 'f' || 'A' <= c <= 'F')
  {
    if '0' <= c <= '9' then Some(c as int - '0' as int)
    else if 'a' <= c <= 'f' then Some(c as int - 'a' as int + 10)
    else if 'A' <= c <= 'F' then Some(c as int - 'A' as int + 10)
    else None
  }

  /** `c` is a digit of the given base. */
  predicate IsDigit(c: char, base: nat)
  {
    DigitValue(c).Some? && DigitValue(c).value < base
  }

  /** Every character of `s` is a digit of the given base. */
  predicate AllDigits(s: string, base: nat)
  {
    forall i :: 0 <= i < |s| ==> IsDigit(s[i], base)
  }

  /** The digit values of a string of digits, in order. */
  function Digits(s: string, base: nat): (ds: seq<nat>)
    requires AllDigits(s, base)
    ensures |ds| == |s|
    ensures forall i :: 0 <= i < |s| ==> ds[i] == DigitValue(s[i]).value < base
  {
    seq(|s|, i requires 0 <= i < |s| => DigitValue(s[i]).value)
  }

  /** The big-endian positional value of a digit sequence. */
  function FromDigits(ds: seq<nat>, base: nat): nat
  {
    if |ds| == 0 then 0 else FromDigits(ds[..|ds| - 1], base) * base + ds[|ds| - 1]
  }

  /** The value of a string of digits in the given base. */
  function Value(s: string, base: nat): nat
    requires AllDigits(s, base)
  {
    FromDigits(Digits(s, base), base)
  }

  /** Peeling the last digit off a numeral. */
  lemma ValueSnoc(s: string, base: nat)
    requires AllDigits(s, base) && |s| > 0
    ensures AllDigits(s[..|s| - 1], base)
    ensures Value(s, base) == Value(s[..|s| - 1], base) * base + DigitValue(s[|s| - 1]).value
  {
    assert Digits(s, base)[..|s| - 1] == Digits(s[..|s| - 1], base);
  }

  /** Appending a digit to a numeral. */
  lemma ValueAppendDigit(s: string, c: char, base: nat)
    requires AllDigits(s, base) && IsDigit(c, base)
    ensures AllDigits(s + [c], base)
    ensures Value(s + [c], base) == Value(s, base) * base + DigitValue(c).value
  {
    var t := s + [c];
    assert forall i :: 0 <= i < |s| ==> t[i] == s[i];
    ValueSnoc(t, base);
    assert t[..|t| - 1] == s;
  }

  /** A leading zero digit never changes the value of a numeral. */
  lemma {:induction false} LeadingZeroValue(s: string, base: nat)
    requires 2 <= base && AllDigits(s, base)
    ensures AllDigits("0" + s, base)
    ensures Value("0" + s, base) == Value(s, base)
    decreases |s|
  {
    var z := "0" + s;
    if |s| > 0 {
      ValueSnoc(s, base);
      ValueSnoc(z, base);
      assert z[..|z| - 1] == "0" + s[..|s| - 1];
      LeadingZeroValue(s[..|s| - 1], base);
    } else {
      ValueSnoc(z, base);
      assert z[..|z| - 1] == [];
    }
  }

  /** The alphabet spells each digit value with a character of that value. */
  lemma AlphabetDigit(d: nat, base: nat)
    requires d < base <= 16
    ensures IsDigit(Alphabet[d], base) && DigitValue(Alphabet[d]).value == d
  {
  }

  /** The canonical numeral of `n`: lower-case digits, no leading zero,
      and "0" for zero (Go's `%d`, `%x` and `big.Int.String()`). */
  function Format(n: nat, base: nat): (s: string)
    requires 2 <= base <= 16
    ensures |s| > 0 && AllDigits(s, base)
    ensures s[0] == '0' ==> n == 0
  {
    AlphabetDigit(n % base, base);
    if n < base then [Alphabet[n]]
    else
      DivShrinks(n, base);
      Format(n / base, base) + [Alphabet[n % base]]
  }

  /** Reading back a rendered numeral yields the number rendered. */
  lemma {:induction false} FormatRoundTrip(n: nat, base: nat)
    requires 2 <= base <= 16
    ensures Value(Format(n, base), base) == n
    decreases n
  {
    if n < base {
      var s := Format(n, base);
      DivModJoin(0, n, base);
      assert s == [Alphabet[n]];
      ValueSnoc(s, base);
      AlphabetDigit(n, base);
      assert s[..|s| - 1] == [];
    } else {
      DivShrinks(n, base);
      FormatRoundTrip(n / base, base);
      FormatStep(n, base);
    }
  }

  /** One digit of the round trip: the last digit and the rest. */
  lemma FormatStep(n: nat, base: nat)
    requires 2 <= base <= 16 && n >= base
    requires Value(Format(n / base, base), base) == n / base
    ensures Value(Format(n, base), base) == n
  {
    var s := Format(n, base);
    var q, d := n / base, n % base;
    ValueSnoc(s, base);
    AlphabetDigit(d, base);
    assert s[..|s| - 1] == Format(q, base);
    DivModRebuild(n, base, q, d);
  }

  /** A numeral in canonical form: non-empty, lower-case, and without a
      leading zero unless it is exactly "0". */
  predicate Canonical(s: string, base: nat)
  {
    && |s| > 0
    && AllDigits(s, base)
    && (forall i :: 0 <= i < |s| ==> s[i] in Alphabet)
    && (s[0] == '0' ==> |s| == 1)
  }

  /** Rendering always produces a canonical numeral. */
  lemma {:induction false} FormatIsCanonical(n: nat, base: nat)
    requires 2 <= base <= 16
    ensures Canonical(Format(n, base), base)
    decreases n
  {
    var s := Format(n, base);
    if n < base {
      assert s == [Alphabet[n]];
    } else {
      DivShrinks(n, base);
      FormatIsCanonical(n / base, base);
      assert s == Format(n / base, base) + [Alphabet[n % base]];
      assert s[0] == Format(n / base, base)[0];
    }
  }

  /** Every canonical numeral is the rendering of its own value: with
      `FormatRoundTrip`, the two directions of the round trip. */
  lemma {:induction false} FormatCanonical(s: string, base: nat)
    requires 2 <= base <= 16 && Canonical(s, base)
    ensures Format(Value(s, base), base) == s
    decreases |s|
  {
    if |s| == 1 {
      SingleDigitValue(s, base);
      CanonicalChar(s[0], base);
      assert s == [Alphabet[DigitValue(s[0]).value]];
    } else {
      var p := s[..|s| - 1];
      CanonicalPrefix(s, base);
      FormatCanonical(p, base);
      PositiveValue(p, base);
      FormatCanonicalStep(s, base);
    }
  }

  /** A one-digit numeral is worth its digit. */
  lemma SingleDigitValue(s: string, base: nat)
    requires AllDigits(s, base) && |s| == 1
    ensures Value(s, base) == DigitValue(s[0]).value
  {
    var ds := Digits(s, base);
    assert ds[..|ds| - 1] == [];
    assert FromDigits(ds, base) == FromDigits([], base) * base + ds[0];
  }

  /** Dropping the last digit of a canonical numeral of two or more digits
      leaves a canonical numeral that does not start with zero. */
  lemma CanonicalPrefix(s: string, base: nat)
    requires Canonical(s, base) && |s| > 1
    ensures Canonical(s[..|s| - 1], base) && s[..|s| - 1][0] == s[0] != '0'
  {
    var p := s[..|s| - 1];
    forall i | 0 <= i < |p|
      ensures p[i] == s[i]
    {
    }
  }

  /** One digit of the canonical-form argument. */
  lemma FormatCanonicalStep(s: string, base: nat)
    requires 2 <= base <= 16 && Canonical(s, base) && |s| > 1
    requires AllDigits(s[..|s| - 1], base) && Format(Value(s[..|s| - 1], base), base) == s[..|s| - 1]
    requires Value(s[..|s| - 1], base) > 0
    ensures Format(Value(s, base), base) == s
  {
    var p := s[..|s| - 1];
    var c := s[|s| - 1];
    ValueSnoc(s, base);
    var d := DigitValue(c).value;
    var v := Value(p, base);
    CanonicalChar(c, base);
    FormatAppend(v, d, base);
    SnocSplit(s);
    assert Value(s, base) == v * base + d;
    assert Format(v * base + d, base) == p + [c];
  }

  /** A non-empty string is its front followed by its last element. */
  lemma SnocSplit(s: string)
    requires |s| > 0
    ensures s == s[..|s| - 1] + [s[|s| - 1]]
  {
  }

  /** Rendering `v * base + d` for a positive `v` appends digit `d` to the
      rendering of `v`. */
  lemma FormatAppend(v: nat, d: nat, base: nat)
    requires 2 <= base <= 16 && d < base && v > 0
    ensures Format(v * base + d, base) == Format(v, base) + [Alphabet[d]]
  {
    var n := v * base + d;
    DivModJoin(v, d, base);
    assert n >= base && n / base == v && n % base == d;
  }

  /** Dividing a positive number by a base of at least two makes it smaller. */
  lemma DivShrinks(n: nat, base: nat)
    requires 2 <= base && n > 0
    ensures n / base < n
    ensures n >= base ==> n / base > 0
  {
    var q := n / base;
    assert n == q * base + n % base;
    if q >= n {
      MulMonotone(2, base, q);
    }
  }

  /** Quotient and remainder put back together give the dividend. */
  lemma DivModRebuild(n: nat, base: nat, q: nat, d: nat)
    requires 2 <= base && q == n / base && d == n % base
    ensures q * base + d == n
  {
  }

  /** Appending digit `d` to a numeral of value `v` is undone by division. */
  lemma DivModJoin(v: nat, d: nat, base: nat)
    requires d < base
    ensures (v * base + d) / base == v && (v * base + d) % base == d
    ensures v > 0 ==> v * base + d >= base
  {
    var n := v * base + d;
    var q, r := n / base, n % base;
    assert n == q * base + r;
    if q < v {
      assert (q + 1) * base == q * base + base;
      MulMonotone(q + 1, v, base);
    } else if v < q {
      assert (v + 1) * base == v * base + base;
      MulMonotone(v + 1, q, base);
    }
    if v > 0 {
      MulMonotone(1, v, base);
    }
  }

  /** Multiplication by a natural number is monotone. */
  lemma {:induction false} MulMonotone(a: nat, b: nat, c: nat)
    requires a <= b
    ensures a * c <= b * c
    decreases b - a
  {
    if a < b {
      MulMonotone(a + 1, b, c);
      assert (a + 1) * c == a * c + c;
    }
  }

  /** A canonical lower-case digit is the alphabet entry of its value. */
  lemma CanonicalChar(c: char, base: nat)
    requires IsDigit(c, base) && c in Alphabet
    ensures Alphabet[DigitValue(c).value] == c
  {
  }

  /** A canonical numeral that does not start with zero has a positive value. */
  lemma PositiveValue(s: string, base: nat)
    requires 2 <= base && Canonical(s, base) && s[0] != '0'
    ensures Value(s, base) > 0
  {
    LeadingDigitBound(s, base);
  }

  /** The value of a numeral is at least its leading digit. */
  lemma {:induction false} LeadingDigitBound(s: string, base: nat)
    requires 2 <= base && AllDigits(s, base) && |s| > 0
    ensures Value(s, base) >= DigitValue(s[0]).value
    decreases |s|
  {
    if |s| == 1 {
      SingleDigitValue(s, base);
    } else {
      var p := s[..|s| - 1];
      ValueSnoc(s, base);
      LeadingDigitBound(p, base);
      assert p[0] == s[0];
      MulMonotone(1, base, Value(p, base));
    }
  }

  /** The longest prefix of `s` made of digits of the given base: how far
      a left-to-right digit reader gets before its first bad character. */
  function LeadingDigits(s: string, base: nat): (p: string)
    ensures p <= s && AllDigits(p, base)
    ensures |p| < |s| ==> !IsDigit(s[|p|], base)
    decreases |s|
  {
    if |s| == 0 || !IsDigit(s[0], base) then ""
    else
      var rest := LeadingDigits(s[1..], base);
      assert forall i :: 0 < i <= |rest| ==> ([s[0]] + rest)[i] == rest[i - 1];
      [s[0]] + rest
  }

  /** A string of digits is its own longest digit prefix. */
  lemma LeadingDigitsOfDigits(s: string, base: nat)
    ensures AllDigits(s, base) <==> LeadingDigits(s, base) == s
  {
  }

  /** Digits in front of the text do not change where the digit run ends. */
  lemma {:induction false} LeadingDigitsAppend(f: string, t: string, base: nat)
    requires AllDigits(f, base)
    ensures LeadingDigits(f + t, base) == f + LeadingDigits(t, base)
    decreases |f|
  {
    if |f| > 0 {
      assert (f + t)[1..] == f[1..] + t;
      assert IsDigit(f[0], base);
      LeadingDigitsAppend(f[1..], t, base);
      assert f == [f[0]] + f[1..];
    } else {
      assert f + t == t;
    }
  }

  /** Two strings of digits joined are a string of digits. */
  lemma AllDigitsAppend(a: string, b: string, base: nat)
    requires AllDigits(a, base) && AllDigits(b, base)
    ensures AllDigits(a + b, base)
  {
    forall i | 0 <= i < |a + b| ensures IsDigit((a + b)[i], base) {
      if i >= |a| {
        assert (a + b)[i] == b[i - |a|];
      }
    }
  }

  /** Dropping the last digit never raises a numeral's value. */
  lemma ValueSnocGrows(s: string, base: nat)
    requires 1 <= base && AllDigits(s, base) && |s| > 0
    ensures AllDigits(s[..|s| - 1], base) && Value(s[..|s| - 1], base) <= Value(s, base)
  {
    ValueSnoc(s, base);
    SnocGrows(Value(s[..|s| - 1], base), base, DigitValue(s[|s| - 1]).value);
  }

  /** Appending a digit in a base of at least one never lowers a value. */
  lemma SnocGrows(x: nat, base: nat, d: nat)
    requires 1 <= base
    ensures x <= x * base + d
  {
    MulMonotone(1, base, x);
  }

  /** Reading more digits never lowers the value read so far. */
  lemma {:induction false} ValueAppendGrows(a: string, b: string, base: nat)
    requires 1 <= base && AllDigits(a, base) && AllDigits(b, base)
    ensures AllDigits(a + b, base) && Value(a, base) <= Value(a + b, base)
    decreases |b|
  {
    AllDigitsAppend(a, b, base);
    if |b| > 0 {
      var ab, b' := a + b, b[..|b| - 1];
      assert ab[..|ab| - 1] == a + b';
      ValueSnocGrows(ab, base);
      ValueAppendGrows(a, b', base);
    } else {
      assert a + b == a;
    }
  }
}

=== FILE: results.dfy ===
/** Failure-carrying values shared by the whole model.

    Go reports recoverable failures as `error` results and unrecoverable
    ones with `panic`; the model keeps the two apart. */
module Results {

  /** A value that may be absent (a nil pointer, a missing map entry). */
  datatype Option<+T> = None | Some(value: T)

  /** The outcome of a computation that either yields a value or panics
      with the given reason. */
  datatype Result<+T> = Ok(value: T) | Panic(reason: string)
}

=== FILE: walk.dfy ===
/** What `parallelFetcher` does with one batch once its fetches have
    joined (main.go:99-119): sort the collected results by block number,
    then walk them from the cursor `lastWritten`, writing a row for the
    block equal to the cursor and advancing it, skipping blocks below it,
    and stopping at the first block above it. */
module BatchWalk {

  /** `BlockResult`: one fetched block, in the order its fetch completed. */
  datatype BlockResult = BlockResult(blockNum: nat, timestamp: int, gasUsed: nat, tips: nat)

  /** The data of one CSV row. The timestamp is not part of it. */
  datatype Row = Row(blockNum: nat, gasUsed: nat, tips: nat)

  function RowOf(r: BlockResult): Row
  {
    Row(r.blockNum, r.gasUsed, r.tips)
  }

  /** The block numbers present in a list of results. */
  function Ids(s: seq<BlockResult>): set<nat>
  {
    set r | r in s :: r.blockNum
  }

  /** The rows the results of a list could produce. */
  function RowsOf(s: seq<BlockResult>): set<Row>
  {
    set r | r in s :: RowOf(r)
  }

  /** No block number occurs twice: one fetch is launched per block. */
  predicate DistinctIds(s: seq<BlockResult>)
  {
    forall i, j :: 0 <= i < j < |s| ==> s[i].blockNum != s[j].blockNum
  }

  predicate SortedByBlock(s: seq<BlockResult>)
  {
    forall i, j :: 0 <= i < j < |s| ==> s[i].blockNum <= s[j].blockNum
  }

  /** Inserts `x` into a sorted list before the first larger-or-equal entry. */
  function Insert(x: BlockResult, s: seq<BlockResult>): (r: seq<BlockResult>)
    requires SortedByBlock(s)
    ensures SortedByBlock(r)
    ensures multiset(r) == multiset(s) + multiset{x}
    ensures r[0] == x || (|s| > 0 && r[0] == s[0])
  {
    if |s| == 0 || x.blockNum <= s[0].blockNum then [x] + s
    else
      var rest := Insert(x, s[1..]);
      InsertBehindHead(x, s, rest);
      [s[0]] + rest
  }

  /** Putting the head back in front of the insertion into the tail. */
  lemma InsertBehindHead(x: BlockResult, s: seq<BlockResult>, rest: seq<BlockResult>)
    requires SortedByBlock(s) && |s| > 0 && x.blockNum > s[0].blockNum
    requires SortedByBlock(rest) && multiset(rest) == multiset(s[1..]) + multiset{x}
    requires rest[0] == x || (|s| > 1 && rest[0] == s[1])
    ensures SortedByBlock([s[0]] + rest)
    ensures multiset([s[0]] + rest) == multiset(s) + multiset{x}
  {
    assert s == [s[0]] + s[1..];
    var r := [s[0]] + rest;
    forall i, j | 0 <= i < j < |r| ensures r[i].blockNum <= r[j].blockNum {
      if i == 0 {
        assert r[j] == rest[j - 1];
        assert rest[0].blockNum <= rest[j - 1].blockNum;
      }
    }
  }

  /** `sort.Slice` by block number: an ordering permutation of the results. */
  function SortByBlock(s: seq<BlockResult>): (r: seq<BlockResult>)
    ensures SortedByBlock(r)
    ensures multiset(r) == multiset(s)
  {
    if |s| == 0 then []
    else
      assert s == [s[0]] + s[1..];
      Insert(s[0], SortByBlock(s[1..]))
  }

  /** Equal multisets hold the same elements, hence the same ids and rows. */
  lemma SameElements(a: seq<BlockResult>, b: seq<BlockResult>)
    requires multiset(a) == multiset(b)
    ensures Ids(a) == Ids(b) && RowsOf(a) == RowsOf(b)
    ensures forall r :: r in a <==> r in b
  {
    assert forall r :: r in a <==> r in multiset(a);
    assert forall r :: r in b <==> r in multiset(b);
  }

  /** In a sorted list every entry is at least the head. */
  lemma HeadIsLeast(s: seq<BlockResult>)
    requires SortedByBlock(s) && |s| > 0
    ensures forall r :: r in s ==> s[0].blockNum <= r.blockNum
  {
    forall r | r in s ensures s[0].blockNum <= r.blockNum {
      var i :| 0 <= i < |s| && s[i] == r;
      if i > 0 {
        assert s[0].blockNum <= s[i].blockNum;
      }
    }
  }

  /** The contiguous walk over a sorted batch, starting at `cursor`: the
      rows written and the cursor after the batch. The cursor ends at the
      first block number at or above `cursor` that is missing from the
      batch, and one row is written for each number passed over. */
  function Walk(sorted: seq<BlockResult>, cursor: nat): (w: (seq<Row>, nat))
    requires SortedByBlock(sorted)
    ensures cursor <= w.1 && |w.0| == w.1 - cursor
    ensures forall k :: 0 <= k < |w.0| ==> w.0[k].blockNum == cursor + k && w.0[k] in RowsOf(sorted)
    ensures forall n :: cursor <= n < w.1 ==> n in Ids(sorted)
    ensures w.1 !in Ids(sorted)
    decreases |sorted|
  {
    if |sorted| == 0 then ([], cursor)
    else
      var head, tail := sorted[0], sorted[1..];
      assert sorted == [head] + tail;
      assert RowsOf(sorted) == {RowOf(head)} + RowsOf(tail);
      assert Ids(sorted) == {head.blockNum} + Ids(tail);
      HeadIsLeast(sorted);
      if head.blockNum == cursor then
        var (rows, next) := Walk(tail, cursor + 1);
        ([RowOf(head)] + rows, next)
      else if head.blockNum > cursor then
        ([], cursor)
      else
        Walk(tail, cursor)
  }

  /** The rows and cursor one batch contributes, whatever order its
      fetches completed in. */
  function BatchStep(results: seq<BlockResult>, cursor: nat): (w: (seq<Row>, nat))
    ensures cursor <= w.1 && |w.0| == w.1 - cursor
    ensures forall k :: 0 <= k < |w.0| ==> w.0[k].blockNum == cursor + k && w.0[k] in RowsOf(results)
    ensures forall n :: cursor <= n < w.1 ==> n in Ids(results)
    ensures w.1 !in Ids(results)
  {
    var sorted := SortByBlock(results);
    SameElements(sorted, results);
    Walk(sorted, cursor)
  }

  /** The cursor after a batch is determined by the set of block numbers
      fetched: two batches with the same numbers advance it alike. */
  lemma CursorDependsOnlyOnIds(a: seq<BlockResult>, b: seq<BlockResult>, cursor: nat)
    requires Ids(a) == Ids(b)
    ensures BatchStep(a, cursor).1 == BatchStep(b, cursor).1
  {
  }

  /** The rows written for a batch depend only on which results arrived,
      not on the order they arrived in. */
  lemma BatchStepOrderIndependent(a: seq<BlockResult>, b: seq<BlockResult>, cursor: nat)
    requires DistinctIds(a)
    requires forall r :: r in a <==> r in b
    ensures BatchStep(a, cursor) == BatchStep(b, cursor)
  {
    assert Ids(a) == Ids(b);
    assert RowsOf(a) == RowsOf(b);
    CursorDependsOnlyOnIds(a, b, cursor);
    var ra := BatchStep(a, cursor).0;
    var rb := BatchStep(b, cursor).0;
    forall k | 0 <= k < |ra| ensures ra[k] == rb[k] {
      RowsUniqueById(a, ra[k], rb[k]);
    }
    assert ra == rb;
  }

  /** With distinct block numbers, a block number picks out one row. */
  lemma RowsUniqueById(a: seq<BlockResult>, x: Row, y: Row)
    requires DistinctIds(a) && x in RowsOf(a) && y in RowsOf(a) && x.blockNum == y.blockNum
    ensures x == y
  {
    var rx :| rx in a && RowOf(rx) == x;
    var ry :| ry in a && RowOf(ry) == y;
    var i :| 0 <= i < |a| && a[i] == rx;
    var j :| 0 <= j < |a| && a[j] == ry;
    assert i == j;
  }

  /** A batch in which every block from the cursor to `last` was fetched,
      and nothing beyond `last`, moves the cursor to `last + 1`. */
  lemma CompleteBatchAdvances(results: seq<BlockResult>, cursor: nat, last: nat)
    requires cursor <= last + 1
    requires forall n :: cursor <= n <= last ==> n in Ids(results)
    requires forall r :: r in results ==> r.blockNum <= last
    ensures BatchStep(results, cursor).1 == last + 1
  {
    assert last + 1 !in Ids(results);
  }

  /** A batch whose every block lies above the cursor writes nothing. */
  lemma GapStopsBatch(results: seq<BlockResult>, cursor: nat)
    requires forall r :: r in results ==> r.blockNum > cursor
    ensures BatchStep(results, cursor) == ([], cursor)
  {
    assert cursor !in Ids(results);
  }
}
